=== FILE: README.md ===
# JALA Magnus clone: request-handler rules and table constraints

This project models the logic of the Express application in `app.js` and the schema in
`db.js` of the JALA Academy "Magnus" practice site. The model is pure Dafny functions over
an in-memory store. There is no HTTP, SQL text or template rendering. Every handler takes
the state it reads (a table, the session, the upload directory listing) and the request's
values. It returns the new state together with the response: a redirect, a rendered view
with its status, error list, notice and data, a JSON body, or a plain-text message.

The project covers these parts:

- **Store** (`tables.dfy`, `employees.dfy`, `schema.dfy`).
  - A table is its rows in id order plus the next AUTOINCREMENT id.
  - `employees` enforces `name NOT NULL` and `email NOT NULL UNIQUE`.
  - A failed statement leaves the table, and its counter, as it was.
  - SQLite checks constraints only on the rows a statement touches. So an `UPDATE` of a
    missing id succeeds and changes nothing.
  - `CREATE TABLE IF NOT EXISTS` keeps an existing table.
- **Employees CRUD** (`employee_routes.dfy`).
  - The HTML family under `/employees` and the JSON family under `/api/employees`.
  - Defaults: `salary || null` and `status || 'Active'`.
  - The API create and update responses echo the body as submitted.
  - Update and delete do not check that the row exists.
- **Employee profiles** (`profiles.dfy`, `profile_routes.dfy`, `sql_like.dfy`).
  - Required-field validation with an ordered error list.
  - Normalisation: trimming, empty to NULL, and skills flattening.
  - Search ANDs optional `LIKE '%term%'` filters and lists newest first. SQLite's `LIKE` is
    modelled exactly: `%` and `_` are wildcards, there is no escape character, and ASCII
    case is folded.
  - `POST /employee/search` is a rewrite into a GET query.
- **Login and the auth gate** (`auth.dfy`).
  - Exact match against the demo credentials.
  - Remember-me sets the cookie lifetime.
  - `requireAuth` is defined in `app.js`, but no route applies it. It is modelled on its
    own.
- **Settings form** (`settings_form.dfy`).
  - The email-shape regular expression, stated both literally and as a check.
  - The error order.
  - Checkbox and default normalisation, and `parseInt(sessionTimeout) || 30`.
  - A logged-in user's email is replaced by the new one.
- **Uploads** (`uploads.dfy`).
  - The stored file name: the timestamp, `_`, and the original name with each whitespace
    run replaced by `_`.
  - The `image/` MIME filter and the gallery's extension filter.
- **JavaScript semantics** (`text.dfy`, `jsvalues.dfy`).
  - `trim` and `\s`, both over the ECMAScript whitespace set.
  - Truthiness of optional string fields.
  - `parseInt` with no radix: whitespace, sign, `0x` prefix, and the longest digit run.
  - The decimal text of an integer.

Request bodies are records of optional strings: `None` is a missing field. JavaScript's
`x || d` and `!x` treat a missing field and the empty string alike. Path ids are the integers
SQLite compares them with.

A non-image upload is refused by multer's `fileFilter` with an error. That error goes to Express's default error
handler, which answers 500, not the route's 400 "Please select an image file" branch.
`Uploads.PostImage` models the 500.

## Model

| member | source | states |
|---|---|---|
| Tables.Find | app.js:275 | `SELECT * … WHERE id = ?`: no row iff the id is absent; otherwise a stored row with that id. |
| Tables.Insert | db.js:13 | AUTOINCREMENT: the new row gets `nextId`, which is above every id present. The counter moves past it, the row is found under it, and every other lookup is unchanged. |
| Tables.Replace | app.js:328-331 | `UPDATE … WHERE id = ?`: only the row with that id gets the new fields. Ids and the counter are unchanged, and a missing id changes nothing found. |
| Tables.Remove | app.js:364 | `DELETE … WHERE id = ?`: that id is gone, every other lookup is unchanged, and the counter is kept, so the id is not handed out again. |
| Tables.NewestFirst | app.js:248 | `ORDER BY id DESC`: the same rows reversed. Id order becomes descending. |
| Tables.Select | app.js:236-246 | The WHERE filter: exactly the rows the predicate accepts, with storage order kept. |
| Employees.Bind | app.js:112-114 | The bound values: name, email and department pass through. An empty or absent salary becomes NULL, and an empty or absent status becomes 'Active'. |
| Employees.Check | db.js:14-15 | The row is accepted iff the name is non-NULL, the email is non-NULL, and no other row has that email. The NOT NULL failures are reported in column order. |
| Employees.Insert | db.js:11-20 | A create succeeds iff name and email are present and the email is unused. On success the invariant (ids, UNIQUE email) holds, the row is stored under the next id, and nothing else changes. On failure the caller keeps its table. |
| Employees.Update | app.js:372-376 | A missing id gives success with the table unchanged. Otherwise it succeeds iff NOT NULL and UNIQUE allow the new values, which then replace all five columns of that row only. |
| Employees.Delete | app.js:390-391 | Never fails. Only the row with that id is removed, and the invariant and counter are kept. |
| Employees.Apply | db.js:13-15 | Any single write keeps the constraints. A created row gets the current counter as its id, and the counter never decreases. |
| Employees.Run | db.js:13-15 | Any sequence of creates, updates and deletes keeps the table consistent. |
| Employees.IdsNeverReused | db.js:13 | Across any run of writes, the issued ids strictly increase. They start at or above the initial counter, so they are above every id ever issued, deleted ones included. |
| EmployeeRoutes.ListPage | app.js:97-104 | The list page shows every row and only those, newest first. |
| EmployeeRoutes.CreateFromForm | app.js:110-126 | Redirect to `/employees` iff the insert succeeds. Then the new id is the counter's, the row under it holds the submitted name, email and department with the salary and status defaults, and every other lookup is unchanged. Otherwise 400 with the form, the body and the error, and the table is unchanged. |
| EmployeeRoutes.EditPage | app.js:128-135 | A plain-text 404 iff no row has the id. Otherwise 200 with the `employees-form` page, no error, showing that row. |
| EmployeeRoutes.UpdateFromForm | app.js:372-388 | A missing id still redirects and changes nothing. The redirect happens iff the update succeeds; then the row with the id holds the submitted fields with the defaults, ids and counter are kept, and every other lookup is unchanged. On failure: 400, the id and body echoed, and the table unchanged. |
| EmployeeRoutes.DeleteFromForm | app.js:390-397 | Always redirects. Only that id disappears, and the id counter is kept, so the id is never handed out again. |
| EmployeeRoutes.ApiList | app.js:400-407 | 200 with exactly the table's rows, in ascending id order (storage order; there is no ORDER BY). |
| EmployeeRoutes.ListingsAreReversed | app.js:400-407 | The JSON listing is the HTML listing read backwards: the same rows, in opposite orders. |
| EmployeeRoutes.ApiRead | app.js:409-419 | 404 exactly when no row has the id, else 200 with that row. |
| EmployeeRoutes.ApiCreate | app.js:421-433 | 201 iff the insert succeeds, with the new id and the raw submitted body; the row under the new id holds the submitted fields with the defaults, and every other lookup is unchanged. Otherwise 400 "Could not create employee" and the table unchanged. |
| EmployeeRoutes.ApiUpdate | app.js:435-447 | 200 with the path id and raw body even when no row has the id; then the table is unchanged. After a 200 on a present id, that row holds the submitted fields with the defaults and every other lookup is unchanged. 400 with the table unchanged on a constraint failure. |
| EmployeeRoutes.ApiDelete | app.js:449-456 | 204 always. Only that id disappears, and the id counter is kept. |
| EmployeeRoutes.CreateStoresSubmittedRow | app.js:421-433 | A create with a fresh email stores one row under the next id. It holds the submitted fields with salary NULL and status 'Active' when those were empty or absent, while the echo keeps the raw values. |
| EmployeeRoutes.DuplicateEmailRejected | db.js:15 | A second create with an email already stored gets 400, and the table stays as the first create left it. |
| EmployeeRoutes.DeleteMissingIsNoContent | app.js:449-456 | Deleting an absent id answers 204 and changes no lookup. |
| Profiles.Validate | app.js:172-174 | The error list is empty iff first name and email are both non-blank. It has 'First Name is required' iff the first name is blank and 'Email is required' iff the email is blank, in that order, and nothing else: one message per blank field. |
| Profiles.SkillsRoundTrip | app.js:176 | A non-empty list of comma-free skills joined with `,` splits back into the same list, order and repeats kept. |
| Profiles.SkillsExample | app.js:176 | The skills AWS and DevOps are stored as "AWS,DevOps". |
| Profiles.Normalize | app.js:193-205 | First name and email are trimmed and non-empty. The last name is trimmed when truthy, else NULL. Each other optional column holds the submitted value when truthy, else NULL. Skills are flattened. |
| Profiles.Search | app.js:236-250 | Exactly the rows meeting every non-blank trimmed filter, each once, newest first. |
| Profiles.BlankQueryListsAll | app.js:239-246 | With blank or absent filters every row is listed. |
| Profiles.RewriteSearch | app.js:263-266 | POST search re-sends name and mobile, with a missing field as the empty string. |
| Profiles.RewriteKeepsResults | app.js:263-266 | The rewritten query gives the same results as the posted values. |
| Profiles.NameSearchIsSubstring | app.js:239-241 | For a wildcard-free name, a row is found iff its first name contains the trimmed name, ignoring ASCII case. |
| SqlLike.LikeContains | app.js:240-241 | `LIKE '%f%'` with a wildcard-free `f` is exactly an ASCII-case-insensitive substring test. |
| SqlLike.UnderscoreIsWildcard | app.js:241 | Search terms are not escaped: "J_n" finds "Jan", which does not contain "J_n". |
| ProfileRoutes.CreateProfile | app.js:153-229 | With errors: 400, the errors and body echoed, no write. Otherwise the normalised row goes under the next id, nothing else changes, and the page comes back empty with the success notice. The stored rows stay tidy. |
| ProfileRoutes.NormalizedIsTidy | app.js:194-196 | A validated form's stored first name and email are non-empty and already trimmed. |
| ProfileRoutes.EditProfilePage | app.js:269-289 | A plain-text 404 iff no row has the id. Otherwise 200 with the `employee-edit` page, no errors and no notice, showing that row. |
| ProfileRoutes.EditProfile | app.js:291-360 | With errors: 400, the id and body echoed, no write. Otherwise all eleven columns of that row are replaced, nothing else changes, a missing id changes nothing, and the browser goes to the search page. |
| ProfileRoutes.ReplaceMissing | app.js:328-331 | An UPDATE whose id matches no row leaves the table identical. |
| ProfileRoutes.DeleteProfile | app.js:362-370 | Always redirects to the search page. Only that id disappears. |
| ProfileRoutes.SearchPage | app.js:232-261 | 200 with the filters echoed untrimmed (absent ones as ''), and exactly the matching rows newest first. |
| ProfileRoutes.SharedEmailAllowed | db.js:23-38 | There is no UNIQUE on profile email: two valid creates with the same email both store a row. |
| ProfileRoutes.RejectedFormsDoNotWrite | app.js:172-187 | A blank first name or email gives 400 on create and on edit, with the table unchanged. |
| ProfileRoutes.CreatedProfileIsFound | app.js:236-248 | After a save, searching for the saved wildcard-free first name lists the new row first. |
| Auth.RequireAuth | app.js:42-47 | Passes the request on iff the session has a user, else redirects to `/login`. |
| Auth.LoginPage | app.js:53-58 | A logged-in visitor is redirected home. Anyone else gets the form with no error. |
| Auth.Login | app.js:60-75 | Succeeds iff email and password exactly equal the demo pair. The user becomes that email, the cookie lifetime becomes 604800000 ms only for a truthy remember-me, and the browser goes home. Otherwise 401 with the error and the session unchanged. |
| Auth.Logout | app.js:77-81 | The session is destroyed and the browser goes home. |
| Auth.LoginOpensLogoutCloses | app.js:42-81 | After login the gate lets requests through and `/login` redirects home. After logout the gate redirects to `/login`. |
| Auth.CredentialsCompareExactly | app.js:63 | Two examples of the exact compare: the password "JobProgram" and the demo email with a trailing space are each refused with 401. |
| Auth.RememberMeSetsMaxAge | app.js:66-69 | "on" sets the seven-day lifetime. An absent box keeps the earlier one. |
| SettingsForm.EmailShapeIsPattern | app.js:671 | The checked shape holds iff the text matches `^[^\s@]+@[^\s@]+\.[^\s@]+$` read literally. |
| SettingsForm.PlainAddressAccepted | app.js:671 | "a@b.c" passes the email check. |
| SettingsForm.NoAtRejected | app.js:671 | Text without `@` fails the email check. |
| SettingsForm.SecondAtRejected | app.js:671 | Any text with two `@` fails the email check. |
| SettingsForm.TrailingDotRejected | app.js:671 | Any text whose part after an `@` has no dot before its last character fails the email check, so a trailing dot alone is not enough. |
| SettingsForm.Errors | app.js:665-673 | 'Display Name is required' iff the display name is blank, listed first. 'Email is required' iff the email is blank. 'Invalid email format' iff the email is non-blank and its untrimmed text fails the shape. No other message appears, and there is one message per failing field. |
| SettingsForm.Timeout | app.js:697 | A non-zero leading integer is returned as it is; NaN or 0 gives 30, so the result is never 0. |
| SettingsForm.TimeoutReadsLeadingInteger | app.js:697 | A field starting with a positive integer (e.g. "45 minutes") gives that integer. |
| SettingsForm.TimeoutKeepsNegative | app.js:697 | A leading negative integer is kept. |
| SettingsForm.TimeoutFallsBack | app.js:697 | "0" and a missing field both give 30. |
| SettingsForm.Normalize | app.js:685-698 | Display name and email are trimmed. Bio defaults to ''. Each checkbox is true iff its value is "on". Theme, language and timezone default to light, en and UTC. The timeout is `Timeout` of the submitted field, so never 0. |
| SettingsForm.Save | app.js:649-711 | With errors: 400, the body echoed, and the session untouched. Otherwise the normalised settings are stored and a logged-in user's email becomes the trimmed email. |
| SettingsForm.Page | app.js:639-647 | The settings page shows the saved settings, or `{}` when none are saved. |
| SettingsForm.SaveThenPage | app.js:639-698 | After a valid save the settings page shows exactly what was saved. |
| SettingsForm.PaddedEmailRejected | app.js:669-673 | The shape is checked before trimming: " a@b.c" is refused although its trim passes. |
| SettingsForm.FailedSaveKeepsSession | app.js:675-682 | Any validation failure leaves the whole session unchanged and answers 400. |
| Uploads.CollapseSpaces | app.js:506 | The sanitised name has no whitespace and is no longer than the original. |
| Uploads.CollapseSpacesIdempotent | app.js:506 | Whitespace-free names are unchanged, and sanitising twice equals sanitising once. |
| Uploads.WordsJoinedByUnderscore | app.js:506 | A whole whitespace run between two words becomes one `_`. |
| Uploads.StoredNameParts | app.js:505-508 | The stored name's leading integer is the upload time. It is followed by `_` and then the sanitised original name. |
| Uploads.StoredNameInjective | app.js:505-508 | Two uploads share a stored name only with the same timestamp and sanitised name. |
| Uploads.MimeExamples | app.js:514 | The MIME filter is a case-sensitive `image/` prefix test. |
| Uploads.Gallery | app.js:522-525 | Every listed name is an image name from the listing, and every image name of the listing is listed; none when the directory cannot be read. |
| Uploads.KeepImagesConcat | app.js:524 | `files.filter` keeps listing order: filtering two runs one after the other equals filtering each and concatenating. |
| Uploads.KeepImagesSingle | app.js:524 | One name is kept once iff it is an image name; with the previous row the gallery is the image names in listing order, each as often as listed. |
| Uploads.GalleryExamples | app.js:524 | Examples: "photo.JPEG", "a.jpg" and "x.WebP" are listed, showing that case is ignored and `jpe?g` takes both spellings; "notes.txt" and "png" are not. |
| Uploads.StoredImageListed | app.js:506-524 | An upload named with a gallery extension keeps it once stored, so it is listed. |
| Uploads.GalleryPage | app.js:521-533 | `GET /more/images` renders, with 200 and no error, exactly the image-named files of the directory, or none when it cannot be read. |
| Uploads.UploadShownInGallery | app.js:504-550 | After an accepted upload of a file with a gallery extension, the gallery page lists the stored name once the directory holds it. |
| Uploads.PostImage | app.js:535-550 | A file is stored iff one was sent with an `image/` type, under the timestamped sanitised name, followed by a redirect. No file gives 400 with the gallery. A refused type is handed to the default error handler (500), and nothing is stored. |
| Schema.CreateIfMissing | db.js:11-12 | An existing table is kept as it is. A missing one is created empty with its counter at 1. |
| Schema.Initialize | db.js:9-39 | After start-up both tables exist. Existing rows and counters are preserved, and the constraints hold. |
| Schema.InitializeIdempotent | db.js:11-24 | Running the start-up twice is the same as running it once. |
| Schema.FirstEmployeeGetsIdOne | db.js:13-18 | The first employee in a fresh table gets id 1 and status 'Active' when none is given. |
| JsValues.ParseIntReadsDecimal | app.js:697 | `parseInt` reads back any non-negative integer's decimal text after leading whitespace, when what follows is not a digit and, after a lone `0`, not the `x`/`X` of a hex prefix. |
| JsValues.ParseIntReadsNegativeDecimal | app.js:697 | The same for a minus sign in front. |
| JsValues.ParseIntOfAbsent | app.js:697 | A missing field parses as NaN. |
| Text.Trim | app.js:173 | `trim` gives an empty result iff the text is all whitespace. The result has non-whitespace ends and is the text with only whitespace cut from both ends. |

## Left out

- Rendering, static and iframe pages (`app.js:84-94`, `app.js:138-151`, `app.js:458-493`, `app.js:552-637`): pure content, no logic.
- The 500 paths for a failing SQLite call, a failing session store, and a failing disk write: these are I/O errors outside the model.
- The text-to-integer affinity of path ids: ids are modelled as integers. A non-numeric id such as `abc` matches no row, which the model already covers as a missing id.
- In the JSON echo of `PUT /api/employees/:id` the id is the path text. The model echoes the integer.
- On a failed employee edit, the form data is `{ id: req.params.id, ...req.body }`: the id is the path text, and an `id` field in the body would override it. The model echoes the integer path id.
- On a failed profile edit, the form data is `{ id, ...req.body }`, so an `id` field in the body would override the path id. The model always echoes the path id.
- Non-string JSON body values (numbers, booleans, nested objects, arrays other than skills): bodies are modelled as optional strings.
- The REAL conversion of `salary`: the value is kept as the bound text.
- `parseInt` beyond exact integers: floating-point rounding above 2^53 is not modelled.
- The URL encoding of the search redirect's query string: the rewrite is modelled as the query it carries.
- SQLite's LIKE pattern length limit and the maximum rowid.
- The page Express's default error handler writes for a refused upload (the stack in development, "Internal Server Error" in production): the model keeps the status 500 and the error's message.
- Session storage, cookie signing and expiry: only the user, the settings and the `maxAge` value are modelled.
- `Date.now()` and the directory listing are parameters. Multer's disk storage and `mkdirSync` are left out.
- The `backend/` authentication files, `backend/server.js` and `api/app.js`. They depend on bcrypt and JWT library calls, and `app.js` never mounts them.
- Uploads.CollapseSpaces: stated as "no whitespace left, not longer". The exact run-by-run shape is given by `Uploads.WordsJoinedByUnderscore` and `Uploads.CollapseSpacesIdempotent`, not by this contract.

=== FILE: auth.dfy ===
/** The per-visitor session and the demo login. The session holds the logged-in user, the
    saved settings and the cookie's max age; the login accepts one fixed pair of
    credentials. */
module Auth {
  import opened Values
  import opened JsValues
  import opened Http

  /** `req.session.user`. */
  datatype User = User(email: string)

  /** The values `POST /more/settings` keeps in `req.session.settings`. */
  datatype Settings = Settings(
    displayName: string,
    email: string,
    bio: string,
    emailNotifications: bool,
    pushNotifications: bool,
    smsNotifications: bool,
    theme: string,
    language: string,
    timezone: string,
    profileVisibility: bool,
    twoFactorAuth: bool,
    sessionTimeout: int)

  /** A visitor's session; `maxAge` is the cookie lifetime in milliseconds, `None` while it
      is a browser-session cookie. */
  datatype Session = Session(user: Option<User>, settings: Option<Settings>, maxAge: Option<nat>)

  /** The session a visitor without a session cookie gets. */
  const Anonymous := Session(None, None, None)

  const DemoEmail := "training@jalaacademy.com"
  const DemoPassword := "jobprogram"

  /** Seven days in milliseconds. */
  const RememberMeMaxAge: nat := 7 * 24 * 60 * 60 * 1000

  const LoginFailed := "Invalid email or password"

  /** The body of `POST /login`; absent fields are `None`. */
  datatype LoginForm = LoginForm(email: Option<string>, password: Option<string>, rememberMe: Option<string>)

  /** What the auth gate decides: pass the request on, or answer it itself. */
  datatype Gate = Next | Stop(response: Response<()>)

  /** `requireAuth`: a request goes through exactly when its session has a user; any other
      is sent to the login page. */
  function RequireAuth(s: Session): (g: Gate)
    ensures g.Next? <==> s.user.Some?
    ensures g.Stop? ==> g.response == Redirect("/login")
  {
    if s.user.Some? then Next else Stop(Redirect("/login"))
  }

  /** `GET /login`: a logged-in visitor is sent home, anyone else gets the form with no
      error. */
  function LoginPage(s: Session): (r: Response<()>)
    ensures r == Redirect("/home") <==> s.user.Some?
    ensures s.user.None? ==> r == View(200, "login", [], "", ())
  {
    if s.user.Some? then Redirect("/home") else View(200, "login", [], "", ())
  }

  /** `POST /login`: exact match of both fields with the demo pair. On success the session
      user is the submitted email, the cookie gets the seven-day lifetime only when
      `rememberMe` is truthy (otherwise it keeps what it had), the saved settings stay,
      and the browser goes home. On failure 401 with the error and the session untouched. */
  function Login(s: Session, f: LoginForm): (r: (Session, Response<()>))
    ensures r.1 == Redirect("/home") <==> f.email == Some(DemoEmail) && f.password == Some(DemoPassword)
    ensures r.1 == Redirect("/home") ==>
      && r.0.user == Some(User(DemoEmail))
      && r.0.settings == s.settings
      && r.0.maxAge == (if Truthy(f.rememberMe) then Some(RememberMeMaxAge) else s.maxAge)
    ensures r.1 != Redirect("/home") ==> r == (s, View(401, "login", [LoginFailed], "", ()))
  {
    if f.email == Some(DemoEmail) && f.password == Some(DemoPassword) then
      var maxAge := if Truthy(f.rememberMe) then Some(RememberMeMaxAge) else s.maxAge;
      (s.(user := Some(User(f.email.value)), maxAge := maxAge), Redirect("/home"))
    else
      (s, View(401, "login", [LoginFailed], "", ()))
  }

  /** `GET /logout`: the session is destroyed, so the next request starts anonymous, and the
      browser goes home. */
  function Logout(s: Session): (r: (Session, Response<()>))
    ensures r.0.user.None? && r.0.settings.None? && r.0.maxAge.None?
    ensures r.1 == Redirect("/home")
  {
    (Anonymous, Redirect("/home"))
  }

  // ---------------------------------------------------------------- properties

  /** After a successful login the gate lets requests through and the login page sends the
      visitor home; after a logout the gate sends them to the login page again. */
  lemma LoginOpensLogoutCloses(s: Session, rememberMe: Option<string>)
    ensures var s1 := Login(s, LoginForm(Some(DemoEmail), Some(DemoPassword), rememberMe)).0;
      && RequireAuth(s1) == Next
      && LoginPage(s1) == Redirect("/home")
      && RequireAuth(Logout(s1).0) == Stop(Redirect("/login"))
  {
  }

  /** Credentials are compared exactly: a password differing only in letter case, or an
      email with a trailing space, is refused. */
  lemma CredentialsCompareExactly(s: Session)
    ensures Login(s, LoginForm(Some(DemoEmail), Some("JobProgram"), None)).1.Status() == 401
    ensures Login(s, LoginForm(Some(DemoEmail + " "), Some(DemoPassword), None)).1.Status() == 401
  {
  }

  /** Remember-me is a checkbox: the value "on" sets the seven-day lifetime (604800000 ms),
      an unchecked (absent) box leaves the lifetime as it was. */
  lemma RememberMeSetsMaxAge(s: Session)
    ensures Login(s, LoginForm(Some(DemoEmail), Some(DemoPassword), Some("on"))).0.maxAge == Some(604800000)
    ensures Login(s, LoginForm(Some(DemoEmail), Some(DemoPassword), None)).0.maxAge == s.maxAge
  {
  }
}

=== FILE: employee_routes.dfy ===
/** The request handlers for the `employees` table: the HTML family under `/employees`
    and the JSON family under `/api/employees`. Each handler takes the table and the
    request's values and returns the table after the request with the response. */
module EmployeeRoutes {
  import opened Values
  import opened Tables
  import opened Employees
  import opened Http

  /** What the `employees-form` template is given as `employee`. */
  datatype FormData =
    | Submitted(id: Option<int>, body: EmployeeInput)   // the request body, with the path id on edit
    | Stored(row: Record<Employee>)                      // the row being edited

  /** The JSON bodies of the `/api/employees` family. */
  datatype ApiBody =
    | Problem(error: string)
    | Rows(rows: seq<Record<Employee>>)
    | Row(row: Record<Employee>)
    /** The id and the five fields exactly as submitted, not as stored. */
    | Echo(id: int, body: EmployeeInput)

  const CreateFailed := "Could not create employee (maybe duplicate email)."
  const UpdateFailed := "Could not update employee (maybe duplicate email)."

  /** The row a body with a name and an email is written as: those two and the department
      as sent, with the handlers' defaults for salary and status. */
  function StoredRow(body: EmployeeInput): Employee
    requires body.name.Some? && body.email.Some?
  {
    var c := Bind(body);
    Employee(c.name.value, c.email.value, c.department, c.salary, c.status)
  }

  // ---------------------------------------------------------------- HTML

  /** `GET /employees`: every row, newest id first. */
  function ListPage(t: EmployeeTable): (r: Response<seq<Record<Employee>>>)
    requires Consistent(t)
    ensures r.View? && r.Status() == 200
    ensures |r.data| == |t.records| && Descending(r.data)
    ensures forall k :: 0 <= k < |r.data| ==> r.data[k] in t.records
    ensures forall k :: 0 <= k < |t.records| ==> t.records[k] in r.data
  {
    var rows := NewestFirst(t.records);
    assert forall k :: 0 <= k < |t.records| ==> t.records[k] == rows[|t.records| - 1 - k];
    View(200, "employees-list", [], "", rows)
  }

  /** `POST /employees`: insert with the handler defaults; on a constraint failure the form
      is shown again with the submitted body and status 400, and the table is unchanged. */
  function CreateFromForm(t: EmployeeTable, body: EmployeeInput): (r: (EmployeeTable, Response<FormData>))
    requires Consistent(t)
    ensures Consistent(r.0)
    ensures r.1 == Redirect("/employees") <==> Employees.Insert(t, Bind(body)).Ok?
    ensures r.1 != Redirect("/employees") ==>
      r.0 == t && r.1 == View(400, "employees-form", [CreateFailed], "", Submitted(None, body))
    ensures r.1 == Redirect("/employees") ==>
      && body.name.Some? && body.email.Some?
      && |r.0.records| == |t.records| + 1
      && r.0.nextId == t.nextId + 1 && Ids(r.0) == Ids(t) + {t.nextId}
      && Find(r.0, t.nextId) == Some(Record(t.nextId, StoredRow(body)))
      && forall k :: k != t.nextId ==> Find(r.0, k) == Find(t, k)
  {
    match Employees.Insert(t, Bind(body))
    case Ok((t', _)) =>
      InsertGrows(t, Bind(body));
      (t', Redirect("/employees"))
    case Err(_) => (t, View(400, "employees-form", [CreateFailed], "", Submitted(None, body)))
  }

  /** A successful insert adds exactly one row. */
  lemma InsertGrows(t: EmployeeTable, c: Bound)
    requires Consistent(t) && c.status != ""
    requires Employees.Insert(t, c).Ok?
    ensures |Employees.Insert(t, c).value.0.records| == |t.records| + 1
  {
    var row := Employee(c.name.value, c.email.value, c.department, c.salary, c.status);
    InsertAppends(t, row);
  }

  /** `GET /employees/:id/edit`: 404 exactly when no row has the id. */
  function EditPage(t: EmployeeTable, id: int): (r: Response<FormData>)
    ensures r == Text(404, "Employee not found") <==> id !in Ids(t)
    ensures id in Ids(t) ==>
      && r.View? && r.status == 200 && r.template == "employees-form" && r.errors == [] && r.notice == ""
      && r.data.Stored? && r.data.row.id == id && r.data.row in t.records
  {
    match Find(t, id)
    case None => Text(404, "Employee not found")
    case Some(row) => View(200, "employees-form", [], "", Stored(row))
  }

  /** `POST /employees/:id`: full replacement of the row's five columns; a missing id still
      redirects. On a constraint failure the form comes back with the id and body, 400,
      and the table is unchanged. */
  function UpdateFromForm(t: EmployeeTable, id: int, body: EmployeeInput): (r: (EmployeeTable, Response<FormData>))
    requires Consistent(t)
    ensures Consistent(r.0)
    ensures id !in Ids(t) ==> r == (t, Redirect("/employees"))
    ensures r.1 == Redirect("/employees") <==> Update(t, id, Bind(body)).Ok?
    ensures r.1 != Redirect("/employees") ==>
      r.0 == t && r.1 == View(400, "employees-form", [UpdateFailed], "", Submitted(Some(id), body))
    ensures r.1 == Redirect("/employees") ==>
      && r.0.nextId == t.nextId && Ids(r.0) == Ids(t)
      && forall k :: k != id ==> Find(r.0, k) == Find(t, k)
    ensures r.1 == Redirect("/employees") && id in Ids(t) ==>
      && body.name.Some? && body.email.Some?
      && Find(r.0, id) == Some(Record(id, StoredRow(body)))
  {
    match Update(t, id, Bind(body))
    case Ok(t') => (t', Redirect("/employees"))
    case Err(_) => (t, View(400, "employees-form", [UpdateFailed], "", Submitted(Some(id), body)))
  }

  /** `POST /employees/:id/delete`: removes that row if present and always redirects. */
  function DeleteFromForm(t: EmployeeTable, id: int): (r: (EmployeeTable, Response<FormData>))
    requires Consistent(t)
    ensures r.1 == Redirect("/employees")
    ensures Consistent(r.0) && Ids(r.0) == Ids(t) - {id} && r.0.nextId == t.nextId
    ensures forall k :: k != id ==> Find(r.0, k) == Find(t, k)
  {
    (Delete(t, id), Redirect("/employees"))
  }

  // ---------------------------------------------------------------- JSON

  /** `GET /api/employees`: every row, in storage order (the query has no ORDER BY), which
      for an AUTOINCREMENT table is ascending id order. */
  function ApiList(t: EmployeeTable): (r: Response<ApiBody>)
    requires Consistent(t)
    ensures r.Json? && r.Status() == 200 && r.body.Rows?
    ensures |r.body.rows| == |t.records| && Ascending(r.body.rows)
    ensures forall k :: 0 <= k < |r.body.rows| ==> r.body.rows[k] in t.records
    ensures forall k :: 0 <= k < |t.records| ==> t.records[k] in r.body.rows
  {
    Json(200, Rows(t.records))
  }

  /** `GET /api/employees/:id`: 404 exactly when no row has the id, else that row. */
  function ApiRead(t: EmployeeTable, id: int): (r: Response<ApiBody>)
    ensures r.Status() == 404 <==> id !in Ids(t)
    ensures id !in Ids(t) ==> r == Json(404, Problem("Not found"))
    ensures id in Ids(t) ==> r.Json? && r.Status() == 200 && r.body.Row? && r.body.row.id == id && r.body.row in t.records
  {
    match Find(t, id)
    case None => Json(404, Problem("Not found"))
    case Some(row) => Json(200, Row(row))
  }

  /** `POST /api/employees`: 201 with the new id and the body as submitted (so the echoed
      status is the raw one, not the defaulted one), or 400 with the table unchanged. */
  function ApiCreate(t: EmployeeTable, body: EmployeeInput): (r: (EmployeeTable, Response<ApiBody>))
    requires Consistent(t)
    ensures Consistent(r.0)
    ensures r.1.Status() == 201 <==> Employees.Insert(t, Bind(body)).Ok?
    ensures r.1.Status() == 201 ==>
      && r.1 == Json(201, Echo(t.nextId, body))
      && body.name.Some? && body.email.Some?
      && r.0.nextId == t.nextId + 1 && Ids(r.0) == Ids(t) + {t.nextId}
      && Find(r.0, t.nextId) == Some(Record(t.nextId, StoredRow(body)))
      && forall k :: k != t.nextId ==> Find(r.0, k) == Find(t, k)
    ensures r.1.Status() != 201 ==> r.0 == t && r.1 == Json(400, Problem("Could not create employee"))
  {
    match Employees.Insert(t, Bind(body))
    case Ok((t', id)) => (t', Json(201, Echo(id, body)))
    case Err(_) => (t, Json(400, Problem("Could not create employee")))
  }

  /** `PUT /api/employees/:id`: 200 with the path id and the body as submitted, even when no
      row has the id; 400 with the table unchanged on a constraint failure. */
  function ApiUpdate(t: EmployeeTable, id: int, body: EmployeeInput): (r: (EmployeeTable, Response<ApiBody>))
    requires Consistent(t)
    ensures Consistent(r.0)
    ensures id !in Ids(t) ==> r == (t, Json(200, Echo(id, body)))
    ensures r.1.Status() == 200 <==> Update(t, id, Bind(body)).Ok?
    ensures r.1.Status() == 200 ==>
      && r.1 == Json(200, Echo(id, body))
      && r.0.nextId == t.nextId && Ids(r.0) == Ids(t)
      && forall k :: k != id ==> Find(r.0, k) == Find(t, k)
    ensures r.1.Status() == 200 && id in Ids(t) ==>
      && body.name.Some? && body.email.Some?
      && Find(r.0, id) == Some(Record(id, StoredRow(body)))
    ensures r.1.Status() != 200 ==> r.0 == t && r.1 == Json(400, Problem("Could not update employee"))
  {
    match Update(t, id, Bind(body))
    case Ok(t') => (t', Json(200, Echo(id, body)))
    case Err(_) => (t, Json(400, Problem("Could not update employee")))
  }

  /** `DELETE /api/employees/:id`: 204 whether or not a row had the id. */
  function ApiDelete(t: EmployeeTable, id: int): (r: (EmployeeTable, Response<ApiBody>))
    requires Consistent(t)
    ensures r.1 == NoContent
    ensures Consistent(r.0) && Ids(r.0) == Ids(t) - {id} && r.0.nextId == t.nextId
    ensures forall k :: k != id ==> Find(r.0, k) == Find(t, k)
  {
    (Delete(t, id), NoContent)
  }

  // ---------------------------------------------------------------- properties

  /** A create whose email is fresh and whose name and email are present stores exactly
      one new row, holding the submitted fields with `status` 'Active' when it was left
      out or empty and `salary` NULL when it was left out or empty. */
  lemma CreateStoresSubmittedRow(t: EmployeeTable, body: EmployeeInput)
    requires Consistent(t)
    requires body.name.Some? && body.email.Some?
    requires forall k :: 0 <= k < |t.records| ==> t.records[k].fields.email != body.email.value
    ensures var (t', resp) := ApiCreate(t, body);
      && resp == Json(201, Echo(t.nextId, body))
      && Ids(t') == Ids(t) + {t.nextId}
      && Find(t', t.nextId) == Some(Record(t.nextId, Employee(
           body.name.value, body.email.value, body.department,
           if body.salary == Some("") then None else body.salary,
           if body.status.None? || body.status == Some("") then "Active" else body.status.value)))
  {
  }

  /** Creating two employees with the same email: the second request gets 400 and the
      table it leaves is the one the first request produced. */
  lemma DuplicateEmailRejected(t: EmployeeTable, first: EmployeeInput, second: EmployeeInput)
    requires Consistent(t)
    requires first.email.Some? && second.email == first.email
    requires ApiCreate(t, first).1.Status() == 201
    ensures var t1 := ApiCreate(t, first).0;
      ApiCreate(t1, second) == (t1, Json(400, Problem("Could not create employee")))
  {
    var t1 := ApiCreate(t, first).0;
    var c := Bind(first);
    var row := Employee(c.name.value, c.email.value, c.department, c.salary, c.status);
    InsertAppends(t, row);
    assert t1.records[|t.records|].fields.email == first.email.value;
    assert EmailTaken(t1, first.email.value, t1.nextId);
  }

  /** The two listings hold the same rows in opposite orders: the JSON list is the HTML
      list read backwards. */
  lemma ListingsAreReversed(t: EmployeeTable)
    requires Consistent(t)
    ensures var api := ApiList(t).body.rows;
      var page := ListPage(t).data;
      && |api| == |page|
      && forall k :: 0 <= k < |api| ==> api[k] == page[|page| - 1 - k]
  {
  }

  /** Deleting an id no row has is answered 204 like any other delete, and changes
      nothing. */
  lemma DeleteMissingIsNoContent(t: EmployeeTable, id: int)
    requires Consistent(t)
    requires id !in Ids(t)
    ensures ApiDelete(t, id).1 == NoContent
    ensures Ids(ApiDelete(t, id).0) == Ids(t)
    ensures forall k :: Find(ApiDelete(t, id).0, k) == Find(t, k)
  {
  }
}

=== FILE: employees.dfy ===
/** The `employees` table: `name TEXT NOT NULL`, `email TEXT NOT NULL UNIQUE`, optional
    `department` and `salary`, and `status` (schema default 'Active', though the handlers
    always bind a value). A statement that would break a constraint fails as a whole and
    leaves the table, including its AUTOINCREMENT counter, as it was. */
module Employees {
  import opened Values
  import opened JsValues
  import opened Tables

  /** The default both the handlers and the schema give `status`. */
  const DefaultStatus := "Active"

  /** The five fields a create or update request carries (`req.body`); absent fields are
      `None`. */
  datatype EmployeeInput = EmployeeInput(
    name: Option<string>,
    email: Option<string>,
    department: Option<string>,
    salary: Option<string>,
    status: Option<string>)

  /** The five values the handlers bind to the statement: the body's name, email and
      department as they are, `salary || null` and `status || 'Active'`. */
  datatype Bound = Bound(
    name: Option<string>,
    email: Option<string>,
    department: Option<string>,
    salary: Option<string>,
    status: string)

  /** A stored row. The salary column is REAL; its value is kept as the bound text. */
  datatype Employee = Employee(
    name: string,
    email: string,
    department: Option<string>,
    salary: Option<string>,
    status: string)

  /** The constraint a failed statement broke. */
  datatype Violation = NameIsNull | EmailIsNull | EmailNotUnique

  type EmployeeTable = Table<Employee>

  /** The handlers' defaults: an empty or absent salary is stored as NULL, an empty or
      absent status as 'Active'; the other three fields pass through untouched. */
  function Bind(b: EmployeeInput): (c: Bound)
    ensures c.name == b.name && c.email == b.email && c.department == b.department
    ensures c.salary.None? <==> (b.salary.None? || b.salary.value == "")
    ensures c.salary.Some? ==> c.salary == b.salary
    ensures c.status != ""
    ensures b.status.Some? && b.status.value != "" ==> c.status == b.status.value
    ensures b.status.None? || b.status.value == "" ==> c.status == DefaultStatus
  {
    Bound(b.name, b.email, b.department, OrNull(b.salary), Or(b.status, DefaultStatus))
  }

  /** No two rows share an email. */
  ghost predicate EmailsUnique(t: EmployeeTable) {
    forall i, j :: 0 <= i < j < |t.records| ==> t.records[i].fields.email != t.records[j].fields.email
  }

  /** Every row's status is non-empty, as every write binds `status || 'Active'`. */
  ghost predicate StatusesSet(t: EmployeeTable) {
    forall i :: 0 <= i < |t.records| ==> t.records[i].fields.status != ""
  }

  /** The table invariant: AUTOINCREMENT ids, the UNIQUE email, and set statuses. */
  ghost predicate Consistent(t: EmployeeTable) {
    Valid(t) && EmailsUnique(t) && StatusesSet(t)
  }

  /** Some row other than the one with id `self` already has this email. */
  predicate EmailTaken(t: EmployeeTable, email: string, self: int) {
    exists k :: 0 <= k < |t.records| && t.records[k].id != self && t.records[k].fields.email == email
  }

  /** The constraint checks SQLite runs on a row about to be written as row `self`:
      NOT NULL on name, NOT NULL on email, then UNIQUE on email. */
  function Check(t: EmployeeTable, c: Bound, self: int): (r: Result<Employee, Violation>)
    ensures r.Ok? <==> c.name.Some? && c.email.Some? && !EmailTaken(t, c.email.value, self)
    ensures r.Ok? ==> r.value == Employee(c.name.value, c.email.value, c.department, c.salary, c.status)
    ensures r == Err(NameIsNull) <==> c.name.None?
    ensures r == Err(EmailIsNull) <==> c.name.Some? && c.email.None?
  {
    if c.name.None? then Err(NameIsNull)
    else if c.email.None? then Err(EmailIsNull)
    else if EmailTaken(t, c.email.value, self) then Err(EmailNotUnique)
    else Ok(Employee(c.name.value, c.email.value, c.department, c.salary, c.status))
  }

  /** `INSERT INTO employees …`: on success the row is stored under a fresh id above every
      id present, the invariant is kept and every other row is as it was; on failure the
      caller keeps the table it had. */
  function Insert(t: EmployeeTable, c: Bound): (r: Result<(EmployeeTable, int), Violation>)
    requires Consistent(t)
    requires c.status != ""
    ensures r.Ok? <==> c.name.Some? && c.email.Some? && !EmailTaken(t, c.email.value, t.nextId)
    ensures r.Err? ==> r.error == Check(t, c, t.nextId).error
    ensures r.Ok? ==> var (t', id) := r.value;
      && Consistent(t')
      && id == t.nextId && id !in Ids(t) && t'.nextId == t.nextId + 1
      && Ids(t') == Ids(t) + {id}
      && Find(t', id) == Some(Record(id, Employee(c.name.value, c.email.value, c.department, c.salary, c.status)))
      && forall k :: k != id ==> Find(t', k) == Find(t, k)
  {
    match Check(t, c, t.nextId)
    case Err(e) => Err(e)
    case Ok(row) =>
      var (t', id) := Tables.Insert(t, row);
      assert t'.records == t.records + [Record(id, row)] by {
        InsertAppends(t, row);
      }
      assert EmailsUnique(t') by {
        forall i, j | 0 <= i < j < |t'.records|
          ensures t'.records[i].fields.email != t'.records[j].fields.email
        {
          if j == |t.records| {
            assert t.records[i].id != t.nextId;
          }
        }
      }
      Ok((t', id))
  }

  /** `UPDATE employees SET … WHERE id = ?`. SQLite checks constraints only on rows the
      statement touches, so a missing id always succeeds and changes nothing. Otherwise the
      row gets all five new values (no merge with the old ones), unless NOT NULL or UNIQUE
      rejects them, in which case the caller keeps the table it had. */
  function Update(t: EmployeeTable, id: int, c: Bound): (r: Result<EmployeeTable, Violation>)
    requires Consistent(t)
    requires c.status != ""
    ensures id !in Ids(t) ==> r == Ok(t)
    ensures id in Ids(t) ==>
      (r.Ok? <==> c.name.Some? && c.email.Some? && !EmailTaken(t, c.email.value, id))
    ensures r.Ok? ==> Consistent(r.value) && r.value.nextId == t.nextId && Ids(r.value) == Ids(t)
    ensures r.Ok? && id in Ids(t) ==>
      Find(r.value, id) == Some(Record(id, Employee(c.name.value, c.email.value, c.department, c.salary, c.status)))
    ensures r.Ok? ==> forall k :: k != id ==> Find(r.value, k) == Find(t, k)
  {
    if id !in Ids(t) then Ok(t)
    else
      match Check(t, c, id)
      case Err(e) => Err(e)
      case Ok(row) =>
        var t' := Replace(t, id, row);
        assert t'.records == ReplaceIn(t.records, id, row);
        assert EmailsUnique(t') by {
          forall i, j | 0 <= i < j < |t'.records|
            ensures t'.records[i].fields.email != t'.records[j].fields.email
          {
            if t.records[i].id == id {
              assert t.records[j].id != id;
            } else if t.records[j].id == id {
              assert t.records[i].id != id;
            }
          }
        }
        Ok(t')
  }

  /** `DELETE FROM employees WHERE id = ?`: never fails; only the row with that id goes. */
  function Delete(t: EmployeeTable, id: int): (r: EmployeeTable)
    requires Consistent(t)
    ensures Consistent(r)
    ensures r.nextId == t.nextId && Ids(r) == Ids(t) - {id}
    ensures Find(r, id) == None
    ensures forall k :: k != id ==> Find(r, k) == Find(t, k)
  {
    var r := Remove(t, id);
    assert r.records == RemoveIn(t.records, id);
    assert EmailsUnique(r) by {
      forall i, j | 0 <= i < j < |r.records|
        ensures r.records[i].fields.email != r.records[j].fields.email
      {
        var a :| 0 <= a < |t.records| && t.records[a] == r.records[i];
        var b :| 0 <= b < |t.records| && t.records[b] == r.records[j];
        assert a != b;
      }
    }
    r
  }

  // ------------------------------------------------------------- request sequences

  /** One write a client can issue against the table through the handlers. */
  datatype Command = Create(body: EmployeeInput) | Change(id: int, body: EmployeeInput) | Drop(id: int)

  /** Applies one command; a failed statement leaves the table as it was. Also returns the
      id the command was given by AUTOINCREMENT, if it created a row. */
  function Apply(t: EmployeeTable, cmd: Command): (r: (EmployeeTable, Option<int>))
    requires Consistent(t)
    ensures Consistent(r.0) && r.0.nextId >= t.nextId
    ensures r.1.Some? ==> r.1.value == t.nextId && r.0.nextId == t.nextId + 1
  {
    match cmd
    case Create(b) =>
      (match Insert(t, Bind(b)) case Ok((t', id)) => (t', Some(id)) case Err(_) => (t, None))
    case Change(id, b) =>
      (match Update(t, id, Bind(b)) case Ok(t') => (t', None) case Err(_) => (t, None))
    case Drop(id) => (Delete(t, id), None)
  }

  /** Applies a run of commands in order, collecting the ids created along the way. */
  function Run(t: EmployeeTable, cmds: seq<Command>): (r: (EmployeeTable, seq<int>))
    requires Consistent(t)
    ensures Consistent(r.0)
    decreases |cmds|
  {
    if cmds == [] then (t, [])
    else
      var (t1, made) := Apply(t, cmds[0]);
      var (t2, rest) := Run(t1, cmds[1..]);
      (t2, (if made.Some? then [made.value] else []) + rest)
  }

  /** AUTOINCREMENT: across any run of creates, updates and deletes, the ids handed out
      strictly increase, start at or above the counter the run began with (so above every
      id ever present before, including deleted ones), and stay below the final counter. */
  lemma {:induction false} IdsNeverReused(t: EmployeeTable, cmds: seq<Command>)
    requires Consistent(t)
    ensures var (t', made) := Run(t, cmds);
      && t'.nextId >= t.nextId
      && (forall i :: 0 <= i < |made| ==> t.nextId <= made[i] < t'.nextId)
      && (forall i, j :: 0 <= i < j < |made| ==> made[i] < made[j])
    decreases |cmds|
  {
    if cmds != [] {
      var (t1, m) := Apply(t, cmds[0]);
      IdsNeverReused(t1, cmds[1..]);
    }
  }
}

=== FILE: http.dfy ===
/** What a request handler sends back, with the rendered template and JSON body reduced
    to the values the handler passes to them. */
module Http {

  datatype Response<B> =
    /** `res.redirect(location)`: status 302. */
    | Redirect(location: string)
    /** `res.status(status).render(template, …)`: the error list, the success notice
        (empty when none) and the data the template is given. */
    | View(status: nat, template: string, errors: seq<string>, notice: string, data: B)
    /** `res.status(status).json(body)`. */
    | Json(status: nat, body: B)
    /** `res.status(status).send(message)` with a plain-text message. */
    | Text(status: nat, message: string)
    /** `res.status(204).send()`. */
    | NoContent
    /** An error handed on to Express's default error handler (no error middleware is
        installed): status 500 with that handler's own error page, not a body the route
        chooses. `error` is the error's message. */
    | ServerError(error: string)
  {
    /** The HTTP status code the response carries. */
    function Status(): nat {
      match this
      case Redirect(_) => 302
      case View(status, _, _, _, _) => status
      case Json(status, _) => status
      case Text(status, _) => status
      case NoContent => 204
      case ServerError(_) => 500
    }
  }
}

=== FILE: jsvalues.dfy ===
/** The JavaScript value semantics the handlers lean on: truthiness of an optional string
    field, the `x || fallback` default idiom, `parseInt` with no radix, and the decimal
    text of a non-negative integer (what `Date.now() + '_'` produces). */
module JsValues {
  import opened Values
  import opened Text

  /** A request-body string field is truthy when it is present and not empty. */
  predicate Truthy(v: Option<string>) {
    v.Some? && v.value != ""
  }

  /** `v || fallback` for a string field. */
  function Or(v: Option<string>, fallback: string): string {
    if Truthy(v) then v.value else fallback
  }

  /** `v || null`: absent and empty both become NULL. */
  function OrNull(v: Option<string>): Option<string> {
    if Truthy(v) then v else None
  }

  /** `!v || !v.trim()`: the field is absent, empty or whitespace only. */
  predicate Blank(v: Option<string>) {
    v.None? || Trim(v.value) == []
  }

  /** `String(v)` for an optional string field: an absent field reads as "undefined". */
  function ToJsString(v: Option<string>): string {
    if v.None? then "undefined" else v.value
  }

  // ---------------------------------------------------------------- digits

  /** A digit of the given radix (10 or 16), ASCII only, either letter case for 16. */
  predicate IsDigit(c: char, radix: nat) {
    || ('0' <= c <= '9')
    || (radix == 16 && (('a' <= c <= 'f') || ('A' <= c <= 'F')))
  }

  /** Numeric value of a digit character. */
  function DigitValue(c: char): nat {
    if '0' <= c <= '9' then c as int - '0' as int
    else if 'a' <= c <= 'f' then c as int - 'a' as int + 10
    else if 'A' <= c <= 'F' then c as int - 'A' as int + 10
    else 0
  }

  /** Length of the longest prefix of `s` made of radix digits. */
  function DigitRun(s: string, radix: nat): (n: nat)
    ensures n <= |s|
    ensures forall k :: 0 <= k < n ==> IsDigit(s[k], radix)
    ensures n < |s| ==> !IsDigit(s[n], radix)
  {
    if s != [] && IsDigit(s[0], radix) then 1 + DigitRun(s[1..], radix) else 0
  }

  /** Value of a digit string, most significant digit first. */
  function DigitsValue(s: string, radix: nat): nat {
    if s == [] then 0 else DigitsValue(s[..|s| - 1], radix) * radix + DigitValue(s[|s| - 1])
  }

  /** The character of a decimal digit. */
  function DigitChar(d: nat): char
    requires d < 10
  {
    ('0' as int + d) as char
  }

  /** Decimal text of a non-negative integer, without leading zeros: what JavaScript's
      number-to-string conversion gives for an integer below 10^21. */
  function Decimal(n: nat): (s: string)
    ensures |s| >= 1
    ensures forall i :: 0 <= i < |s| ==> '0' <= s[i] <= '9'
    ensures s[0] == '0' ==> n == 0
  {
    if n < 10 then [DigitChar(n)] else Decimal(n / 10) + [DigitChar(n % 10)]
  }

  /** Reading the decimal text back gives the number. */
  lemma {:induction false} DecimalValue(n: nat)
    ensures DigitsValue(Decimal(n), 10) == n
  {
    if n >= 10 {
      var s := Decimal(n);
      assert s[..|s| - 1] == Decimal(n / 10);
      DecimalValue(n / 10);
    }
  }

  // ---------------------------------------------------------------- parseInt

  /** `parseInt(text)` with no radix argument, following ECMAScript: skip leading
      whitespace, take one optional sign, switch to radix 16 after a `0x`/`0X` prefix,
      then read the longest run of digits. `None` is NaN; the value is exact (no
      floating-point rounding), and `-0` reads as 0. */
  function ParseInt(text: string): Option<int> {
    ParseSigned(TrimStart(text))
  }

  /** The sign step of `parseInt`, on text whose leading whitespace is already gone. */
  function ParseSigned(s: string): Option<int> {
    var negative := s != [] && s[0] == '-';
    var unsigned := if s != [] && (s[0] == '-' || s[0] == '+') then s[1..] else s;
    match ParseMagnitude(unsigned)
    case None => None
    case Some(m) => Some(if negative then -m else m)
  }

  /** The radix and digit steps of `parseInt`: a `0x`/`0X` prefix selects radix 16. */
  function ParseMagnitude(s: string): Option<int> {
    var hex := |s| >= 2 && s[0] == '0' && (s[1] == 'x' || s[1] == 'X');
    var radix := if hex then 16 else 10;
    var body := if hex then s[2..] else s;
    var n := DigitRun(body, radix);
    if n == 0 then None else Some(DigitsValue(body[..n], radix))
  }

  /** The digit run of a decimal numeral followed by a non-digit is the numeral itself. */
  lemma DecimalRun(n: nat, rest: string)
    requires rest == [] || !IsDigit(rest[0], 10)
    ensures DigitRun(Decimal(n) + rest, 10) == |Decimal(n)|
  {
    var d := Decimal(n);
    var s := d + rest;
    assert forall k :: 0 <= k < |d| ==> s[k] == d[k];
    assert |rest| > 0 ==> s[|d|] == rest[0];
  }

  /** Leading whitespace is skipped up to the first non-whitespace character. */
  lemma TrimStartSkipsBlank(space: string, t: string)
    requires IsBlank(space)
    requires t != [] && !IsSpace(t[0])
    ensures TrimStart(space + t) == t
  {
    var text := space + t;
    assert forall k :: 0 <= k < |space| ==> text[k] == space[k];
    assert text[|space|] == t[0];
    assert SkipSpaces(text, 0) == |space|;
    assert text[|space|..] == t;
  }

  /** Without leading whitespace or sign, `parseInt` reads a decimal numeral exactly. */
  lemma ParseUnsignedDecimal(n: nat, rest: string)
    requires rest == [] || !IsDigit(rest[0], 10)
    requires n == 0 ==> rest == [] || (rest[0] != 'x' && rest[0] != 'X')
    ensures ParseMagnitude(Decimal(n) + rest) == Some(n)
  {
    var d := Decimal(n);
    var numeral := d + rest;
    if |numeral| >= 2 && numeral[0] == '0' {
      assert d[0] == '0';
      assert |d| == 1;
      assert numeral[1] == rest[0];
    }
    DecimalRun(n, rest);
    assert numeral[..|d|] == d;
    DecimalValue(n);
  }

  /** `parseInt` reads back the decimal text of any integer that leads the string after
      optional whitespace, whatever follows as long as it is not another digit and does
      not turn a leading `0` into a `0x` prefix. */
  lemma ParseIntReadsDecimal(space: string, n: nat, rest: string)
    requires IsBlank(space)
    requires rest == [] || !IsDigit(rest[0], 10)
    requires n == 0 ==> rest == [] || (rest[0] != 'x' && rest[0] != 'X')
    ensures ParseInt(space + Decimal(n) + rest) == Some(n as int)
  {
    var d := Decimal(n);
    ParseUnsignedDecimal(n, rest);
    UnsignedAfterSpace(space, d, rest, n);
  }

  /** `SignedAfterSpace` for unsigned text assembled from two pieces. */
  lemma UnsignedAfterSpace(space: string, a: string, b: string, v: int)
    requires IsBlank(space)
    requires a != [] && '0' <= a[0] <= '9'
    requires ParseMagnitude(a + b) == Some(v)
    ensures ParseInt(space + a + b) == Some(v)
  {
    var t := a + b;
    assert t[0] == a[0];
    assert !IsSpace(t[0]);
    UnsignedText(t);
    assert ParseSigned(t) == Some(v);
    SignedAfterSpace(space, t, v);
    assert space + a + b == space + t;
  }

  /** Text that starts with neither sign is read without one. */
  lemma UnsignedText(t: string)
    requires t != [] && t[0] != '-' && t[0] != '+'
    ensures ParseSigned(t) == ParseMagnitude(t)
  {
  }

  /** The same with a minus sign in front of the numeral. */
  lemma ParseIntReadsNegativeDecimal(space: string, n: nat, rest: string)
    requires IsBlank(space)
    requires rest == [] || !IsDigit(rest[0], 10)
    requires n == 0 ==> rest == [] || (rest[0] != 'x' && rest[0] != 'X')
    ensures ParseInt(space + ['-'] + Decimal(n) + rest) == Some(-(n as int))
  {
    var d := Decimal(n);
    MinusDecimal(n, rest);
    SignedTextAfterSpace(space, ['-'], d, rest, -(n as int));
  }

  /** `SignedAfterSpace` for text assembled from three pieces. */
  lemma SignedTextAfterSpace(space: string, a: string, b: string, c: string, v: int)
    requires IsBlank(space)
    requires a != [] && !IsSpace(a[0])
    requires ParseSigned(a + (b + c)) == Some(v)
    ensures ParseInt(space + a + b + c) == Some(v)
  {
    var t := a + (b + c);
    assert space + a + b + c == space + t;
    assert ParseInt(space + t) == Some(v) by {
      assert t[0] == a[0];
      SignedAfterSpace(space, t, v);
    }
  }

  /** The sign step on a minus sign followed by a decimal numeral. */
  lemma MinusDecimal(n: nat, rest: string)
    requires rest == [] || !IsDigit(rest[0], 10)
    requires n == 0 ==> rest == [] || (rest[0] != 'x' && rest[0] != 'X')
    ensures ParseSigned(['-'] + (Decimal(n) + rest)) == Some(-(n as int))
  {
    var t := ['-'] + (Decimal(n) + rest);
    assert t[1..] == Decimal(n) + rest;
    ParseUnsignedDecimal(n, rest);
    NegativeSign(t);
  }

  /** Leading whitespace does not change what `parseInt` reads. */
  lemma SignedAfterSpace(space: string, t: string, v: int)
    requires IsBlank(space)
    requires t != [] && !IsSpace(t[0])
    requires ParseSigned(t) == Some(v)
    ensures ParseInt(space + t) == Some(v)
  {
    TrimStartSkipsBlank(space, t);
  }

  /** The sign step on text that starts with a minus sign. */
  lemma NegativeSign(t: string)
    requires t != [] && t[0] == '-'
    ensures ParseSigned(t) == match ParseMagnitude(t[1..]) case None => None case Some(m) => Some(-m)
  {
  }

  /** An absent field parses as NaN, since its text is "undefined". */
  lemma ParseIntOfAbsent()
    ensures ParseInt(ToJsString(None)) == None
  {
    assert SkipSpaces("undefined", 0) == 0;
  }
}

=== FILE: profile_routes.dfy ===
/** The request handlers for the `employee_profiles` table: create, edit, delete and
    search. Validation runs before any write, so the table's NOT NULL columns are never
    the reason a write fails, and the table has no UNIQUE constraint to fail on. */
module ProfileRoutes {
  import opened Values
  import opened Text
  import opened JsValues
  import opened SqlLike
  import opened Tables
  import opened Profiles
  import opened Http

  /** What the `employee-create` and `employee-edit` templates are given. */
  datatype FormData =
    | Form(form: ProfileForm)                    // the submitted body, or `{}` after a save
    | Edited(id: int, form: ProfileForm)         // `{ id, ...req.body }` on a failed edit
    | Stored(row: Record<Profile>)               // the row being edited

  /** What the `employee-search` template is given: the filters echoed back (`name || ''`,
      `mobile || ''`) and the matching rows. */
  datatype SearchData = SearchData(name: string, mobile: string, rows: seq<Record<Profile>>)

  const Saved := "Employee saved successfully."

  /** Every stored profile has a non-empty first name and email without surrounding
      whitespace: the handlers only ever write trimmed, validated values. */
  ghost predicate WellFormed(t: ProfileTable) {
    Valid(t) && forall k :: 0 <= k < |t.records| ==> Tidy(t.records[k].fields)
  }

  /** The NOT NULL columns hold non-empty text with no surrounding whitespace. */
  ghost predicate Tidy(p: Profile) {
    && p.firstName != [] && Trim(p.firstName) == p.firstName
    && p.email != [] && Trim(p.email) == p.email
  }

  /** `POST /employee/create`: with validation errors, 400 with the errors and the body,
      and no write; otherwise the normalised row is inserted under the next id and the
      page comes back empty with the success notice. */
  function CreateProfile(t: ProfileTable, f: ProfileForm): (r: (ProfileTable, Response<FormData>))
    requires WellFormed(t)
    ensures WellFormed(r.0)
    ensures r.1.View? && r.1.template == "employee-create"
    ensures Validate(f) != [] ==> r == (t, View(400, "employee-create", Validate(f), "", Form(f)))
    ensures Validate(f) == [] ==>
      && r.1 == View(200, "employee-create", [], Saved, Form(EmptyForm))
      && r.0.nextId == t.nextId + 1
      && Ids(r.0) == Ids(t) + {t.nextId}
      && Find(r.0, t.nextId) == Some(Record(t.nextId, Normalize(f)))
      && forall k :: k != t.nextId ==> Find(r.0, k) == Find(t, k)
  {
    var errors := Validate(f);
    if errors != [] then (t, View(400, "employee-create", errors, "", Form(f)))
    else
      var p := Normalize(f);
      NormalizedIsTidy(f);
      InsertKeepsWellFormed(t, p);
      (Tables.Insert(t, p).0, View(200, "employee-create", [], Saved, Form(EmptyForm)))
  }

  /** The row a valid form is stored as has tidy NOT NULL columns. */
  lemma NormalizedIsTidy(f: ProfileForm)
    requires Validate(f) == []
    ensures Tidy(Normalize(f))
  {
    TrimIdempotent(f.firstName.value);
    TrimIdempotent(f.email.value);
  }

  /** Inserting a tidy row keeps the invariant. */
  lemma InsertKeepsWellFormed(t: ProfileTable, p: Profile)
    requires WellFormed(t) && Tidy(p)
    ensures WellFormed(Tables.Insert(t, p).0)
  {
    InsertAppends(t, p);
  }

  /** `GET /employee/:id/edit`: plain-text 404 exactly when no row has the id. */
  function EditProfilePage(t: ProfileTable, id: int): (r: Response<FormData>)
    ensures r == Text(404, "Employee not found") <==> id !in Ids(t)
    ensures id in Ids(t) ==>
      r.View? && r.status == 200 && r.template == "employee-edit" && r.errors == [] && r.notice == ""
      && r.data.Stored? && r.data.row.id == id && r.data.row in t.records
  {
    match Find(t, id)
    case None => Text(404, "Employee not found")
    case Some(row) => View(200, "employee-edit", [], "", Stored(row))
  }

  /** `POST /employee/:id/edit`: with validation errors, 400 with the id and the body and
      no write; otherwise the row with that id, if any, gets all eleven normalised
      columns, nothing else changes, and the browser goes back to the search page, even
      when no row had the id. */
  function EditProfile(t: ProfileTable, id: int, f: ProfileForm): (r: (ProfileTable, Response<FormData>))
    requires WellFormed(t)
    ensures WellFormed(r.0)
    ensures Validate(f) != [] ==> r == (t, View(400, "employee-edit", Validate(f), "", Edited(id, f)))
    ensures Validate(f) == [] ==>
      && r.1 == Redirect("/employee/search")
      && r.0.nextId == t.nextId && Ids(r.0) == Ids(t)
      && (id in Ids(t) ==> Find(r.0, id) == Some(Record(id, Normalize(f))))
      && (id !in Ids(t) ==> r.0 == t)
      && forall k :: k != id ==> Find(r.0, k) == Find(t, k)
  {
    var errors := Validate(f);
    if errors != [] then (t, View(400, "employee-edit", errors, "", Edited(id, f)))
    else
      var p := Normalize(f);
      var t' := Replace(t, id, p);
      NormalizedIsTidy(f);
      ReplaceKeepsWellFormed(t, id, p);
      ReplaceMissing(t, id, p);
      (t', Redirect("/employee/search"))
  }

  /** Replacing a row with a trimmed, non-empty first name and email keeps the invariant. */
  lemma ReplaceKeepsWellFormed(t: ProfileTable, id: int, p: Profile)
    requires WellFormed(t) && Tidy(p)
    ensures WellFormed(Replace(t, id, p))
  {
    assert Replace(t, id, p).records == ReplaceIn(t.records, id, p);
  }

  /** An update whose id matches no row leaves the table exactly as it was. */
  lemma {:induction false} ReplaceMissing(t: ProfileTable, id: int, p: Profile)
    requires Valid(t)
    ensures id !in Ids(t) ==> Replace(t, id, p) == t
  {
    if id !in Ids(t) {
      var rs := ReplaceIn(t.records, id, p);
      assert rs == t.records by {
        forall k | 0 <= k < |t.records| ensures rs[k] == t.records[k] {
          assert t.records[k] in t.records;
        }
      }
    }
  }

  /** `POST /employee/:id/delete`: only the row with that id goes, and the browser goes back
      to the search page whether or not it existed. */
  function DeleteProfile(t: ProfileTable, id: int): (r: (ProfileTable, Response<FormData>))
    requires WellFormed(t)
    ensures WellFormed(r.0)
    ensures r.1 == Redirect("/employee/search")
    ensures r.0.nextId == t.nextId && Ids(r.0) == Ids(t) - {id}
    ensures forall k :: k != id ==> Find(r.0, k) == Find(t, k)
  {
    var t' := Remove(t, id);
    assert t'.records == RemoveIn(t.records, id);
    (t', Redirect("/employee/search"))
  }

  /** `GET /employee/search`: the matching rows newest first, with the filters echoed as
      given (untrimmed, absent ones as empty). */
  function SearchPage(t: ProfileTable, q: SearchQuery): (r: Response<SearchData>)
    requires Valid(t)
    ensures r.View? && r.status == 200 && r.template == "employee-search"
    ensures r.data.name == (if q.name.Some? then q.name.value else "")
    ensures r.data.mobile == (if q.mobile.Some? then q.mobile.value else "")
    ensures forall k :: 0 <= k < |r.data.rows| ==> r.data.rows[k] in t.records && Matches(q, r.data.rows[k].fields)
    ensures forall k :: 0 <= k < |t.records| && Matches(q, t.records[k].fields) ==> t.records[k] in r.data.rows
    ensures Descending(r.data.rows)
  {
    View(200, "employee-search", [], "", SearchData(Or(q.name, ""), Or(q.mobile, ""), Search(t, q)))
  }

  // ---------------------------------------------------------------- properties

  /** `employee_profiles` has no UNIQUE constraint: two valid submissions with the same
      email are both stored, under consecutive ids. */
  lemma SharedEmailAllowed(t: ProfileTable, f1: ProfileForm, f2: ProfileForm)
    requires WellFormed(t)
    requires Validate(f1) == [] && Validate(f2) == []
    requires f1.email == f2.email
    ensures var t1 := CreateProfile(t, f1).0;
      var t2 := CreateProfile(t1, f2).0;
      && Find(t2, t.nextId).Some? && Find(t2, t.nextId + 1).Some?
      && Find(t2, t.nextId).value.fields.email == Find(t2, t.nextId + 1).value.fields.email
  {
  }

  /** A failed validation never writes, whatever the table: create and edit return the
      table they were given. */
  lemma RejectedFormsDoNotWrite(t: ProfileTable, id: int, f: ProfileForm)
    requires WellFormed(t)
    requires Blank(f.firstName) || Blank(f.email)
    ensures CreateProfile(t, f).0 == t && CreateProfile(t, f).1.Status() == 400
    ensures EditProfile(t, id, f).0 == t && EditProfile(t, id, f).1.Status() == 400
  {
  }

  /** Saving a profile and then searching for its trimmed first name, when that name has no
      wildcard characters, lists the new row first. */
  lemma CreatedProfileIsFound(t: ProfileTable, f: ProfileForm)
    requires WellFormed(t)
    requires Validate(f) == []
    requires Literal(Trim(f.firstName.value))
    ensures var t' := CreateProfile(t, f).0;
      Search(t', SearchQuery(f.firstName, None)) != []
      && Search(t', SearchQuery(f.firstName, None))[0] == Record(t.nextId, Normalize(f))
  {
    var t' := CreateProfile(t, f).0;
    var p := Normalize(f);
    var name := Trim(f.firstName.value);
    var q := SearchQuery(f.firstName, None);
    assert t'.records == t.records + [Record(t.nextId, p)] by { InsertAppends(t, p); }
    var last := |t.records|;
    assert t'.records[last] == Record(t.nextId, p);
    assert ContainsIgnoringCase(p.firstName, name) by {
      assert p.firstName[0..] == p.firstName;
      assert PrefixIgnoringCase(name, p.firstName[0..]);
    }
    NameSearchIsSubstring(t', f.firstName.value, last);
    NewestLeads(t', Search(t', q), Record(t.nextId, p));
  }
}

=== FILE: profiles.dfy ===
/** The `employee_profiles` table and the rules its create, edit and search handlers
    apply: required-field validation, normalisation of the submitted form into a row, and
    the optional substring filters of the search page. The table has NOT NULL on
    `first_name` and `email` but no UNIQUE constraint. */
module Profiles {
  import opened Values
  import opened Text
  import opened JsValues
  import opened Tables
  import opened SqlLike

  /** The `skills` field of a form body: absent, a single checked value, or the list of
      checked values when several were chosen. */
  datatype Skills = NoSkills | OneSkill(value: string) | SkillList(items: seq<string>)

  /** The body of the create and edit forms; absent fields are `None`. */
  datatype ProfileForm = ProfileForm(
    firstName: Option<string>,
    lastName: Option<string>,
    email: Option<string>,
    mobile: Option<string>,
    dob: Option<string>,
    gender: Option<string>,
    address: Option<string>,
    country: Option<string>,
    city: Option<string>,
    otherCity: Option<string>,
    skills: Skills)

  /** A stored profile row; `None` is SQL NULL. */
  datatype Profile = Profile(
    firstName: string,
    lastName: Option<string>,
    email: string,
    mobile: Option<string>,
    dob: Option<string>,
    gender: Option<string>,
    address: Option<string>,
    country: Option<string>,
    city: Option<string>,
    otherCity: Option<string>,
    skills: string)

  type ProfileTable = Table<Profile>

  /** The empty form body `{}` the create page is rendered with after a save. */
  const EmptyForm := ProfileForm(None, None, None, None, None, None, None, None, None, None, NoSkills)

  const FirstNameRequired := "First Name is required"
  const EmailRequired := "Email is required"

  /** The required-field check shared by create and edit: one message per blank required
      field, first name before email. */
  function Validate(f: ProfileForm): (errors: seq<string>)
    ensures errors == [] <==> !Blank(f.firstName) && !Blank(f.email)
    ensures FirstNameRequired in errors <==> Blank(f.firstName)
    ensures EmailRequired in errors <==> Blank(f.email)
    ensures |errors| <= 2
    ensures errors != [] && Blank(f.firstName) ==> errors[0] == FirstNameRequired
    ensures errors != [] && !Blank(f.firstName) ==> errors == [EmailRequired]
    ensures forall e :: e in errors ==> e == FirstNameRequired || e == EmailRequired
    ensures |errors| == (if Blank(f.firstName) then 1 else 0) + (if Blank(f.email) then 1 else 0)
  {
    (if Blank(f.firstName) then [FirstNameRequired] else [])
    + (if Blank(f.email) then [EmailRequired] else [])
  }

  /** The text stored in the `skills` column: a list is joined with commas (order and
      repeats kept), a single value is kept as it is, and an absent field becomes empty. */
  function FlattenSkills(s: Skills): string {
    match s
    case NoSkills => ""
    case OneSkill(v) => v
    case SkillList(items) => Join(items, ",")
  }

  /** A list of comma-free skill names survives the trip into the `skills` column: splitting
      the stored text on commas gives the same list back. */
  lemma SkillsRoundTrip(items: seq<string>)
    requires |items| >= 1
    requires forall i :: 0 <= i < |items| ==> ',' !in items[i]
    ensures Split(FlattenSkills(SkillList(items)), ',') == items
  {
    SplitJoin(items, ',');
  }

  /** Submitting the skills "AWS" and "DevOps" stores "AWS,DevOps". */
  lemma SkillsExample()
    ensures FlattenSkills(SkillList(["AWS", "DevOps"])) == "AWS,DevOps"
  {
  }

  /** The row a valid form is stored as: first name and email trimmed, last name trimmed
      when given and NULL when absent or empty, every other optional field NULL when absent
      or empty and otherwise as submitted, and skills flattened. */
  function Normalize(f: ProfileForm): (p: Profile)
    requires Validate(f) == []
    ensures p.firstName != [] && !IsSpace(p.firstName[0]) && !IsSpace(p.firstName[|p.firstName| - 1])
    ensures p.email != [] && !IsSpace(p.email[0]) && !IsSpace(p.email[|p.email| - 1])
    ensures p.firstName == Trim(f.firstName.value) && p.email == Trim(f.email.value)
    ensures p.lastName.Some? <==> Truthy(f.lastName)
    ensures p.lastName.Some? ==> p.lastName.value == Trim(f.lastName.value)
    ensures StoredOrNull(f.mobile, p.mobile) && StoredOrNull(f.dob, p.dob)
    ensures StoredOrNull(f.gender, p.gender) && StoredOrNull(f.address, p.address)
    ensures StoredOrNull(f.country, p.country) && StoredOrNull(f.city, p.city)
    ensures StoredOrNull(f.otherCity, p.otherCity)
    ensures p.skills == FlattenSkills(f.skills)
  {
    Profile(
      Trim(f.firstName.value),
      if Truthy(f.lastName) then Some(Trim(f.lastName.value)) else None,
      Trim(f.email.value),
      OrNull(f.mobile), OrNull(f.dob), OrNull(f.gender), OrNull(f.address),
      OrNull(f.country), OrNull(f.city), OrNull(f.otherCity),
      FlattenSkills(f.skills))
  }

  /** The column holds the submitted value when that value is present and non-empty, and
      NULL otherwise. */
  predicate StoredOrNull(submitted: Option<string>, column: Option<string>) {
    (column.Some? <==> Truthy(submitted)) && (column.Some? ==> column == submitted)
  }

  // ---------------------------------------------------------------- search

  /** The `name` and `mobile` values of a search request; absent ones are `None`. */
  datatype SearchQuery = SearchQuery(name: Option<string>, mobile: Option<string>)

  /** `column LIKE '%' || term || '%'` with the trimmed term; a NULL column never matches. */
  predicate ColumnContains(column: Option<string>, term: string) {
    column.Some? && Like("%" + Trim(term) + "%", column.value)
  }

  /** The WHERE clause the search handler builds: a filter is added only for a non-blank
      value, and the filters are ANDed. */
  predicate Matches(q: SearchQuery, p: Profile) {
    && (Blank(q.name) || ColumnContains(Some(p.firstName), q.name.value))
    && (Blank(q.mobile) || ColumnContains(p.mobile, q.mobile.value))
  }

  /** `SELECT * FROM employee_profiles WHERE … ORDER BY id DESC`: exactly the rows the
      filters accept, each once, newest id first. */
  function Search(t: ProfileTable, q: SearchQuery): (rows: seq<Record<Profile>>)
    requires Valid(t)
    ensures forall k :: 0 <= k < |rows| ==> rows[k] in t.records && Matches(q, rows[k].fields)
    ensures forall k :: 0 <= k < |t.records| && Matches(q, t.records[k].fields) ==> t.records[k] in rows
    ensures Descending(rows)
  {
    var kept := Select(t.records, (p: Profile) => Matches(q, p));
    var rows := NewestFirst(kept);
    assert forall k :: 0 <= k < |kept| ==> kept[k] == rows[|kept| - 1 - k];
    rows
  }

  /** With no usable filter the search lists the whole table. */
  lemma BlankQueryListsAll(t: ProfileTable, q: SearchQuery)
    requires Valid(t)
    requires Blank(q.name) && Blank(q.mobile)
    ensures forall k :: 0 <= k < |t.records| ==> t.records[k] in Search(t, q)
  {
  }

  /** `POST /employee/search` only re-encodes the body as a GET query, with a missing
      field sent as the empty string. */
  function RewriteSearch(body: SearchQuery): (q: SearchQuery)
    ensures q.name.Some? && q.mobile.Some?
    ensures q.name.value == (if body.name.Some? then body.name.value else "")
    ensures q.mobile.value == (if body.mobile.Some? then body.mobile.value else "")
  {
    SearchQuery(Some(Or(body.name, "")), Some(Or(body.mobile, "")))
  }

  /** The rewrite changes nothing about the results: an empty value and a missing one
      both impose no filter. */
  lemma RewriteKeepsResults(t: ProfileTable, body: SearchQuery)
    requires Valid(t)
    ensures Search(t, RewriteSearch(body)) == Search(t, body)
  {
    var q := RewriteSearch(body);
    assert Blank(q.name) <==> Blank(body.name);
    assert Blank(q.mobile) <==> Blank(body.mobile);
    assert forall p :: Matches(q, p) == Matches(body, p);
    SelectAgrees(t.records, (p: Profile) => Matches(q, p), (p: Profile) => Matches(body, p));
  }

  /** A search by name alone with a wildcard-free term finds exactly the profiles whose
      first name contains the trimmed term, ignoring ASCII case. */
  lemma NameSearchIsSubstring(t: ProfileTable, name: string, k: int)
    requires Valid(t)
    requires Trim(name) != [] && Literal(Trim(name))
    requires 0 <= k < |t.records|
    ensures t.records[k] in Search(t, SearchQuery(Some(name), None))
            <==> ContainsIgnoringCase(t.records[k].fields.firstName, Trim(name))
  {
    LikeContains(Trim(name), t.records[k].fields.firstName);
    var rows := Search(t, SearchQuery(Some(name), None));
    if t.records[k] in rows {
      var j :| 0 <= j < |rows| && rows[j] == t.records[k];
    }
  }
}

=== FILE: schema.dfy ===
/** Start-up of the database: both tables are created with `CREATE TABLE IF NOT EXISTS`,
    so a table that is already there is kept with its rows and its id counter. */
module Schema {
  import opened Values
  import opened Tables
  import opened Employees
  import opened Profiles
  import opened ProfileRoutes

  /** The two tables, `None` while a table does not exist yet. */
  datatype Database = Database(employees: Option<EmployeeTable>, profiles: Option<ProfileTable>)

  /** A table that satisfies its constraints: the employees invariant or the profiles one. */
  ghost predicate Sound(db: Database) {
    && (db.employees.Some? ==> Consistent(db.employees.value))
    && (db.profiles.Some? ==> WellFormed(db.profiles.value))
  }

  /** `CREATE TABLE IF NOT EXISTS` for one table: an existing table is left alone, a
      missing one is created empty with its counter at 1. */
  function CreateIfMissing<R(==)>(t: Option<Table<R>>): (r: Table<R>)
    ensures t.Some? ==> r == t.value
    ensures t.None? ==> r.records == [] && r.nextId == 1
  {
    if t.Some? then t.value else Empty()
  }

  /** The start-up script: both tables exist afterwards, existing rows and counters are
      preserved, and the constraints hold. */
  function Initialize(db: Database): (r: Database)
    requires Sound(db)
    ensures Sound(r)
    ensures r.employees.Some? && r.profiles.Some?
    ensures db.employees.Some? ==> r.employees == db.employees
    ensures db.profiles.Some? ==> r.profiles == db.profiles
    ensures db.employees.None? ==> r.employees.value.records == [] && r.employees.value.nextId == 1
    ensures db.profiles.None? ==> r.profiles.value.records == [] && r.profiles.value.nextId == 1
  {
    Database(Some(CreateIfMissing(db.employees)), Some(CreateIfMissing(db.profiles)))
  }

  /** Running the start-up script again changes nothing. */
  lemma InitializeIdempotent(db: Database)
    requires Sound(db)
    ensures Initialize(Initialize(db)) == Initialize(db)
  {
  }

  /** The first id a fresh employees table hands out is 1, and the row gets the status the
      handler bound, which is the schema's own default 'Active' when the body has none. */
  lemma FirstEmployeeGetsIdOne(name: string, email: string)
    ensures var t := Initialize(Database(None, None)).employees.value;
      var c := Bind(EmployeeInput(Some(name), Some(email), None, None, None));
      && Employees.Insert(t, c).Ok?
      && Employees.Insert(t, c).value.1 == 1
      && Find(Employees.Insert(t, c).value.0, 1).value.fields.status == DefaultStatus
  {
  }
}

=== FILE: settings_form.dfy ===
/** `POST /more/settings` and `GET /more/settings`: validation of the display name and the
    email (including the email-shape regular expression `^[^\s@]+@[^\s@]+\.[^\s@]+$`),
    and the normalisation of the form into the settings kept in the session. */
module SettingsForm {
  import opened Values
  import opened Text
  import opened JsValues
  import opened Http
  import opened Auth

  /** The body of `POST /more/settings`; absent fields (unchecked boxes among them) are
      `None`. */
  datatype SettingsBody = SettingsBody(
    displayName: Option<string>,
    email: Option<string>,
    bio: Option<string>,
    emailNotifications: Option<string>,
    pushNotifications: Option<string>,
    smsNotifications: Option<string>,
    theme: Option<string>,
    language: Option<string>,
    timezone: Option<string>,
    profileVisibility: Option<string>,
    twoFactorAuth: Option<string>,
    sessionTimeout: Option<string>)

  /** What the `more-settings` template is given as `settings`. */
  datatype SettingsData =
    | Submitted(body: SettingsBody)     // the rejected body, echoed back
    | Kept(settings: Settings)          // the settings stored in the session
    | NoSettings                        // `{}`: nothing saved yet

  const DisplayNameRequired := "Display Name is required"
  const EmailRequired := "Email is required"
  const InvalidEmail := "Invalid email format"
  const SettingsSaved := "Settings saved successfully!"

  /** The session timeout used when the field does not start with a non-zero integer. */
  const DefaultTimeout := 30

  // ---------------------------------------------------------------- email shape

  /** A character the class `[^\s@]` accepts. */
  predicate Plain(c: char) {
    !IsSpace(c) && c != '@'
  }

  /** Every character of `s[lo..hi]` is plain. */
  predicate PlainBetween(s: string, lo: int, hi: int)
    requires 0 <= lo <= hi <= |s|
  {
    forall k :: lo <= k < hi ==> Plain(s[k])
  }

  /** The regular expression read literally: the whole text is a non-empty run of plain
      characters, `@`, another non-empty run, `.`, and a last non-empty run. */
  ghost predicate MatchesEmailPattern(s: string) {
    exists i, j {:trigger s[i], s[j]} ::
      && 0 < i && i + 1 < j && j + 1 < |s|
      && s[i] == '@' && s[j] == '.'
      && PlainBetween(s, 0, i) && PlainBetween(s, i + 1, j) && PlainBetween(s, j + 1, |s|)
  }

  /** Index of the first `c` in `s`, or `|s|` when there is none. */
  function IndexOf(s: string, c: char): (n: nat)
    ensures n <= |s|
    ensures forall k :: 0 <= k < n ==> s[k] != c
    ensures n < |s| ==> s[n] == c
  {
    if s == [] || s[0] == c then 0 else 1 + IndexOf(s[1..], c)
  }

  /** The shape the regular expression asks for, stated the way one would check it: no
      whitespace anywhere, a first `@` with text before it and no other `@` after it, and
      a `.` after the `@` with text on both sides. */
  predicate EmailShaped(s: string) {
    var at := IndexOf(s, '@');
    && NoSpace(s)
    && 0 < at < |s|
    && (forall k :: at < k < |s| ==> s[k] != '@')
    && (exists k :: at + 1 < k < |s| - 1 && s[k] == '.')
  }

  /** The checked shape is exactly the regular expression. */
  lemma EmailShapeIsPattern(s: string)
    ensures EmailShaped(s) <==> MatchesEmailPattern(s)
  {
    if MatchesEmailPattern(s) {
      PatternIsShaped(s);
    }
    if EmailShaped(s) {
      ShapedIsPattern(s);
    }
  }

  lemma PatternIsShaped(s: string)
    requires MatchesEmailPattern(s)
    ensures EmailShaped(s)
  {
    var i, j :| 0 < i && i + 1 < j && j + 1 < |s| && s[i] == '@' && s[j] == '.'
      && PlainBetween(s, 0, i) && PlainBetween(s, i + 1, j) && PlainBetween(s, j + 1, |s|);
    assert forall k :: 0 <= k < |s| && k != i && k != j ==> Plain(s[k]);
    assert IndexOf(s, '@') == i;
  }

  lemma ShapedIsPattern(s: string)
    requires EmailShaped(s)
    ensures MatchesEmailPattern(s)
  {
    var i := IndexOf(s, '@');
    var j :| i + 1 < j < |s| - 1 && s[j] == '.';
    assert forall k :: 0 <= k < |s| && k != i ==> Plain(s[k]);
    assert PlainBetween(s, 0, i) && PlainBetween(s, i + 1, j) && PlainBetween(s, j + 1, |s|);
  }

  /** A plain address passes. */
  lemma PlainAddressAccepted()
    ensures EmailShaped("a@b.c")
  {
    var s := "a@b.c";
    assert IndexOf(s, '@') == 1 by { assert s[0] != '@' && s[1] == '@'; assert s[1..][0] == '@'; }
    assert s[3] == '.';
  }

  /** Text without `@` fails. */
  lemma NoAtRejected(s: string)
    requires forall k :: 0 <= k < |s| ==> s[k] != '@'
    ensures !EmailShaped(s)
  {
  }

  /** Text with two `@` fails, wherever they are. */
  lemma SecondAtRejected(s: string, i: int, j: int)
    requires 0 <= i < j < |s| && s[i] == '@' && s[j] == '@'
    ensures !EmailShaped(s)
  {
  }

  /** Text whose part after some `@` has no dot before its last character fails; "a@bc."
      is one such. */
  lemma TrailingDotRejected(s: string, i: int)
    requires 0 <= i < |s| && s[i] == '@'
    requires forall k :: i < k < |s| - 1 ==> s[k] != '.'
    ensures !EmailShaped(s)
  {
  }

  // ---------------------------------------------------------------- the form

  /** The error list: the display name first, then either the missing email or its shape.
      The shape is checked on the email as submitted, not on its trimmed form. */
  function Errors(b: SettingsBody): (errors: seq<string>)
    ensures errors == [] <==> !Blank(b.displayName) && !Blank(b.email) && EmailShaped(b.email.value)
    ensures DisplayNameRequired in errors <==> Blank(b.displayName)
    ensures EmailRequired in errors <==> Blank(b.email)
    ensures InvalidEmail in errors <==> !Blank(b.email) && !EmailShaped(b.email.value)
    ensures Blank(b.displayName) ==> errors[0] == DisplayNameRequired
    ensures forall e :: e in errors ==> e == DisplayNameRequired || e == EmailRequired || e == InvalidEmail
    ensures |errors| ==
      (if Blank(b.displayName) then 1 else 0) + (if Blank(b.email) || !EmailShaped(b.email.value) then 1 else 0)
  {
    (if Blank(b.displayName) then [DisplayNameRequired] else [])
    + (if Blank(b.email) then [EmailRequired]
       else if !EmailShaped(b.email.value) then [InvalidEmail]
       else [])
  }

  /** `parseInt(sessionTimeout) || 30`: the leading integer of the field, or 30 when there
      is none (NaN) or it is 0; so never 0. */
  function Timeout(v: Option<string>): (minutes: int)
    ensures minutes != 0
    ensures ParseInt(ToJsString(v)).None? ==> minutes == DefaultTimeout
    ensures ParseInt(ToJsString(v)) == Some(0) ==> minutes == DefaultTimeout
    ensures ParseInt(ToJsString(v)).Some? && ParseInt(ToJsString(v)).value != 0 ==>
      minutes == ParseInt(ToJsString(v)).value
  {
    match ParseInt(ToJsString(v))
    case None => DefaultTimeout
    case Some(n) => if n == 0 then DefaultTimeout else n
  }

  /** A checkbox is on exactly when the browser sent the value "on". */
  predicate Checked(v: Option<string>) {
    v == Some("on")
  }

  /** The settings a valid body is saved as. */
  function Normalize(b: SettingsBody): (s: Settings)
    requires Errors(b) == []
    ensures s.displayName == Trim(b.displayName.value) && s.displayName != []
    ensures s.email == Trim(b.email.value) && s.email == b.email.value
    ensures s.bio == (if b.bio.Some? then b.bio.value else "")
    ensures s.emailNotifications == (b.emailNotifications == Some("on"))
    ensures s.pushNotifications == (b.pushNotifications == Some("on"))
    ensures s.smsNotifications == (b.smsNotifications == Some("on"))
    ensures s.profileVisibility == (b.profileVisibility == Some("on"))
    ensures s.twoFactorAuth == (b.twoFactorAuth == Some("on"))
    ensures s.theme == (if Truthy(b.theme) then b.theme.value else "light")
    ensures s.language == (if Truthy(b.language) then b.language.value else "en")
    ensures s.timezone == (if Truthy(b.timezone) then b.timezone.value else "UTC")
    ensures s.sessionTimeout == Timeout(b.sessionTimeout) && s.sessionTimeout != 0
  {
    ShapedEmailIsTrimmed(b.email.value);
    Settings(
      Trim(b.displayName.value), Trim(b.email.value), Or(b.bio, ""),
      Checked(b.emailNotifications), Checked(b.pushNotifications), Checked(b.smsNotifications),
      Or(b.theme, "light"), Or(b.language, "en"), Or(b.timezone, "UTC"),
      Checked(b.profileVisibility), Checked(b.twoFactorAuth),
      Timeout(b.sessionTimeout))
  }

  /** An email that passes the shape check has no whitespace, so trimming keeps it whole. */
  lemma ShapedEmailIsTrimmed(e: string)
    requires EmailShaped(e)
    ensures Trim(e) == e
  {
    assert SkipSpaces(e, 0) == 0;
    assert BackOverSpaces(e, 0, |e|) == |e|;
  }

  /** `POST /more/settings`: with errors, 400 with the errors and the body echoed and the
      session untouched; otherwise the settings are saved in the session, a logged-in
      user's email becomes the submitted email, and the page confirms the save. */
  function Save(s: Session, b: SettingsBody): (r: (Session, Response<SettingsData>))
    ensures r.1.View? && r.1.template == "more-settings"
    ensures Errors(b) != [] ==> r == (s, View(400, "more-settings", Errors(b), "", Submitted(b)))
    ensures Errors(b) == [] ==>
      && r.0.settings == Some(Normalize(b))
      && r.0.user == (if s.user.Some? then Some(User(Trim(b.email.value))) else None)
      && r.0.maxAge == s.maxAge
      && r.1 == View(200, "more-settings", [], SettingsSaved, Kept(Normalize(b)))
  {
    var errors := Errors(b);
    if errors != [] then (s, View(400, "more-settings", errors, "", Submitted(b)))
    else
      var settings := Normalize(b);
      var user := if s.user.Some? then Some(User(Trim(b.email.value))) else None;
      (s.(settings := Some(settings), user := user), View(200, "more-settings", [], SettingsSaved, Kept(settings)))
  }

  /** `GET /more/settings`: the settings saved in the session, or `{}`. */
  function Page(s: Session): (r: Response<SettingsData>)
    ensures r.View? && r.status == 200 && r.errors == [] && r.notice == ""
    ensures s.settings.Some? <==> r.data.Kept?
    ensures s.settings.Some? ==> r.data.settings == s.settings.value
    ensures s.settings.None? ==> r.data == NoSettings
  {
    View(200, "more-settings", [], "", if s.settings.Some? then Kept(s.settings.value) else NoSettings)
  }

  // ---------------------------------------------------------------- properties

  /** What is saved is what the settings page shows afterwards. */
  lemma SaveThenPage(s: Session, b: SettingsBody)
    requires Errors(b) == []
    ensures Page(Save(s, b).0).data == Kept(Normalize(b))
  {
  }

  /** The shape is checked before trimming: an address with a leading space is refused
      although its trimmed form would pass. */
  lemma PaddedEmailRejected(s: Session, b: SettingsBody, e: string)
    requires !Blank(b.displayName)
    requires EmailShaped(e)
    requires b.email == Some([' '] + e)
    ensures Save(s, b) == (s, View(400, "more-settings", [InvalidEmail], "", Submitted(b)))
    ensures Trim(b.email.value) == e
  {
    var t := [' '] + e;
    assert IsSpace(t[0]);
    assert t[1] == e[0];
    assert forall k :: 1 <= k < |t| ==> t[k] == e[k - 1];
    assert SkipSpaces(t, 0) == 1;
    assert BackOverSpaces(t, 1, |t|) == |t|;
    assert t[1..] == e;
    assert Trim(t) == e;
    assert !NoSpace(t);
    assert !EmailShaped(b.email.value);
    assert !Blank(b.email);
    assert Errors(b) == [InvalidEmail];
  }

  /** The timeout field is read as its leading integer: "45 minutes" gives 45. */
  lemma TimeoutReadsLeadingInteger(n: nat, rest: string)
    requires n > 0
    requires rest == [] || !IsDigit(rest[0], 10)
    ensures Timeout(Some(Decimal(n) + rest)) == n
  {
    var text := Decimal(n) + rest;
    assert [] + Decimal(n) + rest == text;
    ParseIntReadsDecimal([], n, rest);
    assert ParseInt(text) == Some(n as int);
  }

  /** A negative leading integer is kept as it is. */
  lemma TimeoutKeepsNegative(n: nat, rest: string)
    requires n > 0
    requires rest == [] || !IsDigit(rest[0], 10)
    ensures Timeout(Some(['-'] + Decimal(n) + rest)) == -(n as int)
  {
    var text := ['-'] + Decimal(n) + rest;
    NegativeNumeral(n, rest);
    assert ToJsString(Some(text)) == text;
  }

  /** `parseInt` of a minus sign, a numeral and a non-digit tail. */
  lemma NegativeNumeral(n: nat, rest: string)
    requires rest == [] || !IsDigit(rest[0], 10)
    requires n == 0 ==> rest == [] || (rest[0] != 'x' && rest[0] != 'X')
    ensures ParseInt(['-'] + Decimal(n) + rest) == Some(-(n as int))
  {
    ParseIntReadsNegativeDecimal([], n, rest);
    assert [] + ['-'] + Decimal(n) + rest == ['-'] + Decimal(n) + rest;
  }

  /** A zero or a missing field falls back to 30 minutes. */
  lemma TimeoutFallsBack()
    ensures Timeout(Some("0")) == DefaultTimeout
    ensures Timeout(None) == DefaultTimeout
  {
    ParseIntReadsDecimal([], 0, []);
    assert [] + Decimal(0) + [] == "0";
    ParseIntOfAbsent();
  }

  /** A failed save leaves the whole session, login included, as it was. */
  lemma FailedSaveKeepsSession(s: Session, b: SettingsBody)
    requires Blank(b.displayName) || Blank(b.email) || !EmailShaped(b.email.value)
    ensures Save(s, b).0 == s && Save(s, b).1.Status() == 400
  {
  }
}

=== FILE: sql_like.dfy ===
/** SQLite's `LIKE` operator with its default settings: `%` matches any run of characters,
    `_` matches exactly one, no escape character, and letters compare without regard to
    case only within ASCII. */
module SqlLike {
  import opened Text

  /** `text LIKE pattern`. */
  function Like(pattern: string, text: string): bool
    decreases |pattern|, |text|
  {
    if pattern == [] then text == []
    else if pattern[0] == '%' then
      Like(pattern[1..], text) || (text != [] && Like(pattern, text[1..]))
    else if pattern[0] == '_' then
      text != [] && Like(pattern[1..], text[1..])
    else
      text != [] && LowerAscii(pattern[0]) == LowerAscii(text[0]) && Like(pattern[1..], text[1..])
  }

  /** The pattern has no wildcard characters. */
  predicate Literal(p: string) {
    '%' !in p && '_' !in p
  }

  /** `s` starts with `p`, comparing letters without regard to ASCII case. */
  predicate PrefixIgnoringCase(p: string, s: string) {
    |p| <= |s| && forall i :: 0 <= i < |p| ==> LowerAscii(p[i]) == LowerAscii(s[i])
  }

  /** `p` occurs somewhere in `s`, comparing letters without regard to ASCII case. */
  predicate ContainsIgnoringCase(s: string, p: string) {
    exists k :: 0 <= k <= |s| && PrefixIgnoringCase(p, s[k..])
  }

  /** A lone `%` matches everything. */
  lemma {:induction false} PercentMatchesAll(text: string)
    ensures Like("%", text)
  {
    if text != [] {
      PercentMatchesAll(text[1..]);
    }
  }

  /** A literal followed by `%` matches exactly the texts that start with the literal. */
  lemma {:induction false} LiteralThenPercent(p: string, text: string)
    requires Literal(p)
    ensures Like(p + "%", text) <==> PrefixIgnoringCase(p, text)
    decreases |p|
  {
    if p == [] {
      assert p + "%" == "%";
      PercentMatchesAll(text);
    } else {
      assert (p + "%")[1..] == p[1..] + "%";
      assert p[0] != '%' && p[0] != '_' by { assert p[0] in p; }
      if text != [] {
        LiteralThenPercent(p[1..], text[1..]);
        if PrefixIgnoringCase(p[1..], text[1..]) && LowerAscii(p[0]) == LowerAscii(text[0]) {
          assert PrefixIgnoringCase(p, text) by {
            forall i | 0 <= i < |p| ensures LowerAscii(p[i]) == LowerAscii(text[i]) {
              if i > 0 { assert p[i] == p[1..][i - 1] && text[i] == text[1..][i - 1]; }
            }
          }
        }
        if PrefixIgnoringCase(p, text) {
          assert PrefixIgnoringCase(p[1..], text[1..]) by {
            forall i | 0 <= i < |p| - 1 ensures LowerAscii(p[1..][i]) == LowerAscii(text[1..][i]) {
              assert p[1..][i] == p[i + 1] && text[1..][i] == text[i + 1];
            }
          }
        }
      }
    }
  }

  /** A leading `%` lets the rest of the pattern match any suffix of the text. */
  lemma {:induction false} PercentThen(q: string, text: string)
    ensures Like("%" + q, text) <==> exists k :: 0 <= k <= |text| && Like(q, text[k..])
    decreases |text|
  {
    var pat := "%" + q;
    assert pat[0] == '%' && pat[1..] == q;
    if text == [] {
      assert text[0..] == text;
    } else {
      PercentThen(q, text[1..]);
      if Like(pat, text) {
        if !Like(q, text) {
          var k :| 0 <= k <= |text[1..]| && Like(q, text[1..][k..]);
          assert text[1..][k..] == text[k + 1..];
        } else {
          assert text[0..] == text;
        }
      }
      if exists k :: 0 <= k <= |text| && Like(q, text[k..]) {
        var k :| 0 <= k <= |text| && Like(q, text[k..]);
        if k > 0 {
          assert text[1..][k - 1..] == text[k..];
        } else {
          assert text[0..] == text;
        }
      }
    }
  }

  /** `column LIKE '%' || f || '%'` with a wildcard-free `f` is exactly a substring test
      that ignores ASCII case. */
  lemma LikeContains(f: string, text: string)
    requires Literal(f)
    ensures Like("%" + f + "%", text) <==> ContainsIgnoringCase(text, f)
  {
    assert "%" + f + "%" == "%" + (f + "%");
    PercentThen(f + "%", text);
    forall k | 0 <= k <= |text|
      ensures Like(f + "%", text[k..]) <==> PrefixIgnoringCase(f, text[k..])
    {
      LiteralThenPercent(f, text[k..]);
    }
  }

  /** Wildcards in the filter are not escaped: `_` in a search term matches any one
      character, so "J_n" finds "Jan" although "Jan" does not contain "J_n". */
  lemma UnderscoreIsWildcard()
    ensures Like("%J_n%", "Jan")
    ensures !ContainsIgnoringCase("Jan", "J_n")
  {
    assert Like("%J_n%", "Jan") by {
      assert "%J_n%"[1..] == "J_n%";
      assert "J_n%"[1..] == "_n%";
      assert "_n%"[1..] == "n%";
      assert "n%"[1..] == "%";
      assert "Jan"[1..] == "an";
      assert "an"[1..] == "n";
      assert "n"[1..] == "";
    }
    forall k | 0 <= k <= 3 ensures !PrefixIgnoringCase("J_n", "Jan"[k..]) {
      if k == 0 { assert LowerAscii("J_n"[1]) != LowerAscii("Jan"[1]); }
    }
  }
}

=== FILE: tables.dfy ===
/** A table whose primary key is `INTEGER PRIMARY KEY AUTOINCREMENT`: rows in id order,
    plus the next id the table will hand out. SQLite never reuses an AUTOINCREMENT id, so
    `nextId` only grows, and a failed statement leaves it untouched. */
module Tables {
  import opened Values

  datatype Record<R> = Record(id: int, fields: R)

  datatype Table<R> = Table(records: seq<Record<R>>, nextId: int)

  /** A freshly created table: no rows, and the first id handed out is 1. */
  function Empty<R(==)>(): Table<R> {
    Table([], 1)
  }

  /** Ids strictly increase along the sequence. */
  ghost predicate Ascending<R>(rs: seq<Record<R>>) {
    forall i, j :: 0 <= i < j < |rs| ==> rs[i].id < rs[j].id
  }

  /** Ids strictly decrease along the sequence. */
  ghost predicate Descending<R>(rs: seq<Record<R>>) {
    forall i, j :: 0 <= i < j < |rs| ==> rs[i].id > rs[j].id
  }

  /** Ids are positive, strictly increasing in storage order, and all below `nextId`. */
  ghost predicate Valid<R>(t: Table<R>) {
    && 1 <= t.nextId
    && (forall i :: 0 <= i < |t.records| ==> 1 <= t.records[i].id < t.nextId)
    && Ascending(t.records)
  }

  /** The ids present in the table. */
  function Ids<R(==)>(t: Table<R>): set<int> {
    set r | r in t.records :: r.id
  }

  /** `SELECT * FROM t WHERE id = ?`: the row with that id, if any. */
  function Find<R(==)>(t: Table<R>, id: int): (r: Option<Record<R>>)
    ensures r.None? <==> id !in Ids(t)
    ensures r.Some? ==> r.value in t.records && r.value.id == id
  {
    FindIn(t.records, id)
  }

  function FindIn<R(==)>(rs: seq<Record<R>>, id: int): (r: Option<Record<R>>)
    ensures r.None? <==> forall k :: 0 <= k < |rs| ==> rs[k].id != id
    ensures r.Some? ==> r.value in rs && r.value.id == id
  {
    if rs == [] then None
    else if rs[0].id == id then Some(rs[0])
    else FindIn(rs[1..], id)
  }

  /** In a valid table the row stored at a position is the one found by its id. */
  lemma FindAt<R>(t: Table<R>, i: int)
    requires Valid(t)
    requires 0 <= i < |t.records|
    ensures Find(t, t.records[i].id) == Some(t.records[i])
  {
    var r := Find(t, t.records[i].id);
    var k :| 0 <= k < |t.records| && t.records[k] == r.value;
    assert k == i;
  }

  /** `INSERT`: the new row gets `nextId`, which is above every id present; the counter
      moves past it and every other lookup is unchanged. */
  function Insert<R(==)>(t: Table<R>, fields: R): (r: (Table<R>, int))
    requires Valid(t)
    ensures Valid(r.0)
    ensures r.1 == t.nextId && r.0.nextId == t.nextId + 1
    ensures forall id :: id in Ids(t) ==> id < r.1
    ensures Ids(r.0) == Ids(t) + {r.1}
    ensures Find(r.0, r.1) == Some(Record(r.1, fields))
    ensures forall id :: id != r.1 ==> Find(r.0, id) == Find(t, id)
  {
    var rec := Record(t.nextId, fields);
    var t' := Table(t.records + [rec], t.nextId + 1);
    assert t'.records[|t.records|] == rec;
    FindAt(t', |t.records|);
    forall id | id != rec.id ensures Find(t', id) == Find(t, id) {
      FindAppend(t.records, rec, id);
    }
    (t', t.nextId)
  }

  /** The new row goes at the end of storage order. */
  lemma InsertAppends<R>(t: Table<R>, fields: R)
    requires Valid(t)
    ensures Insert(t, fields).0.records == t.records + [Record(t.nextId, fields)]
  {
  }

  lemma {:induction false} FindAppend<R>(rs: seq<Record<R>>, rec: Record<R>, id: int)
    requires rec.id != id
    ensures FindIn(rs + [rec], id) == FindIn(rs, id)
  {
    if rs != [] {
      assert (rs + [rec])[1..] == rs[1..] + [rec];
      FindAppend(rs[1..], rec, id);
    }
  }

  /** `UPDATE … WHERE id = ?` with no constraint failing: the row with that id, if present,
      gets the new fields; nothing else changes, and a missing id changes nothing. */
  function Replace<R(==)>(t: Table<R>, id: int, fields: R): (r: Table<R>)
    requires Valid(t)
    ensures Valid(r)
    ensures r.nextId == t.nextId && Ids(r) == Ids(t)
    ensures Find(r, id) == if id in Ids(t) then Some(Record(id, fields)) else None
    ensures forall k :: k != id ==> Find(r, k) == Find(t, k)
  {
    var r := Table(ReplaceIn(t.records, id, fields), t.nextId);
    ReplaceKeepsIds(t, id, fields);
    forall k ensures Find(r, k) == if k == id && id in Ids(t) then Some(Record(id, fields)) else Find(t, k) {
      ReplaceFinds(t, id, fields, k);
    }
    r
  }

  lemma ReplaceKeepsIds<R>(t: Table<R>, id: int, fields: R)
    ensures Ids(Table(ReplaceIn(t.records, id, fields), t.nextId)) == Ids(t)
  {
    var rs := ReplaceIn(t.records, id, fields);
    var r := Table(rs, t.nextId);
    forall x ensures x in Ids(r) <==> x in Ids(t) {
      if x in Ids(r) {
        var k :| 0 <= k < |rs| && rs[k].id == x;
        assert t.records[k] in t.records;
      }
      if x in Ids(t) {
        var k :| 0 <= k < |t.records| && t.records[k].id == x;
        assert rs[k] in rs;
      }
    }
  }

  lemma ReplaceFinds<R>(t: Table<R>, id: int, fields: R, k: int)
    requires Valid(t)
    ensures var r := Table(ReplaceIn(t.records, id, fields), t.nextId);
      Find(r, k) == if k == id && id in Ids(t) then Some(Record(id, fields)) else Find(t, k)
  {
    var rs := ReplaceIn(t.records, id, fields);
    var r := Table(rs, t.nextId);
    ReplaceKeepsIds(t, id, fields);
    assert Valid(r);
    var f := Find(t, k);
    if f.Some? {
      var i :| 0 <= i < |t.records| && t.records[i] == f.value;
      FindAt(t, i);
      FindAt(r, i);
    }
  }

  function ReplaceIn<R(==)>(rs: seq<Record<R>>, id: int, fields: R): (r: seq<Record<R>>)
    ensures |r| == |rs|
    ensures forall k :: 0 <= k < |rs| ==> r[k].id == rs[k].id
    ensures forall k :: 0 <= k < |rs| && rs[k].id == id ==> r[k] == Record(id, fields)
    ensures forall k :: 0 <= k < |rs| && rs[k].id != id ==> r[k] == rs[k]
  {
    if rs == [] then []
    else [if rs[0].id == id then Record(id, fields) else rs[0]] + ReplaceIn(rs[1..], id, fields)
  }

  /** `DELETE … WHERE id = ?`: the row with that id, if present, is gone; every other row
      keeps its place and the counter is untouched, so the id is never handed out again. */
  function Remove<R(==)>(t: Table<R>, id: int): (r: Table<R>)
    requires Valid(t)
    ensures Valid(r)
    ensures r.nextId == t.nextId
    ensures Ids(r) == Ids(t) - {id}
    ensures Find(r, id) == None
    ensures forall k :: k != id ==> Find(r, k) == Find(t, k)
  {
    var r := Table(RemoveIn(t.records, id), t.nextId);
    forall k | k != id ensures Find(r, k) == Find(t, k) {
      RemoveKeepsOthers(t.records, id, k);
    }
    r
  }

  function RemoveIn<R(==)>(rs: seq<Record<R>>, id: int): (r: seq<Record<R>>)
    ensures forall k :: 0 <= k < |r| ==> r[k] in rs && r[k].id != id
    ensures forall k :: 0 <= k < |rs| && rs[k].id != id ==> rs[k] in r
    ensures Ascending(rs) ==> Ascending(r)
  {
    if rs == [] then []
    else if rs[0].id == id then RemoveIn(rs[1..], id)
    else [rs[0]] + RemoveIn(rs[1..], id)
  }

  lemma {:induction false} RemoveKeepsOthers<R>(rs: seq<Record<R>>, id: int, k: int)
    requires k != id
    ensures FindIn(RemoveIn(rs, id), k) == FindIn(rs, k)
  {
    if rs != [] {
      RemoveKeepsOthers(rs[1..], id, k);
    }
  }

  /** `ORDER BY id DESC` over a run of rows kept in id order: the same rows, newest first. */
  function NewestFirst<R(==)>(rs: seq<Record<R>>): (r: seq<Record<R>>)
    ensures |r| == |rs|
    ensures forall k :: 0 <= k < |rs| ==> r[k] == rs[|rs| - 1 - k]
    ensures Ascending(rs) ==> Descending(r)
  {
    if rs == [] then [] else NewestFirst(rs[1..]) + [rs[0]]
  }

  /** The rows satisfying `keep`, in storage order. */
  function Select<R(==)>(rs: seq<Record<R>>, keep: R -> bool): (r: seq<Record<R>>)
    ensures forall k :: 0 <= k < |r| ==> r[k] in rs && keep(r[k].fields)
    ensures forall k :: 0 <= k < |rs| && keep(rs[k].fields) ==> rs[k] in r
    ensures Ascending(rs) ==> Ascending(r)
  {
    if rs == [] then []
    else if keep(rs[0].fields) then [rs[0]] + Select(rs[1..], keep)
    else Select(rs[1..], keep)
  }

  /** Two filters that agree on every row select the same rows. */
  lemma {:induction false} SelectAgrees<R>(rs: seq<Record<R>>, keep: R -> bool, keep': R -> bool)
    requires forall x :: keep(x) == keep'(x)
    ensures Select(rs, keep) == Select(rs, keep')
  {
    if rs != [] {
      SelectAgrees(rs[1..], keep, keep');
    }
  }

  /** Among rows of a valid table listed newest first, a row holding the last id handed
      out comes first. */
  lemma NewestLeads<R>(t: Table<R>, rs: seq<Record<R>>, x: Record<R>)
    requires Valid(t)
    requires Descending(rs)
    requires forall k :: 0 <= k < |rs| ==> rs[k] in t.records
    requires x in rs && x.id == t.nextId - 1
    ensures rs != [] && rs[0] == x
  {
  }
}

=== FILE: text.dfy ===
/** String helpers with the semantics of the JavaScript built-ins the handlers call:
    `String.prototype.trim`, the `\s` regular-expression class, `Array.prototype.join`,
    and ASCII case folding as used by SQLite LIKE and the `i` regular-expression flag. */
module Text {

  /** ECMAScript WhiteSpace and LineTerminator code points: exactly the characters that
      `trim` removes and that `\s` matches. */
  predicate IsSpace(c: char) {
    || c == '\t' || c == '\n' || c == '\U{B}' || c == '\U{C}' || c == '\r' || c == ' '
    || c == '\U{A0}' || c == '\U{1680}' || ('\U{2000}' <= c <= '\U{200A}')
    || c == '\U{2028}' || c == '\U{2029}' || c == '\U{202F}' || c == '\U{205F}'
    || c == '\U{3000}' || c == '\U{FEFF}'
  }

  /** Every character is whitespace (vacuously true of the empty string). */
  predicate IsBlank(s: string) {
    forall i :: 0 <= i < |s| ==> IsSpace(s[i])
  }

  /** No character is whitespace. */
  predicate NoSpace(s: string) {
    forall i :: 0 <= i < |s| ==> !IsSpace(s[i])
  }

  /** Index of the first non-whitespace character at or after `from` (`|s|` if none). */
  function SkipSpaces(s: string, from: nat): (n: nat)
    requires from <= |s|
    ensures from <= n <= |s|
    ensures forall k :: from <= k < n ==> IsSpace(s[k])
    ensures n < |s| ==> !IsSpace(s[n])
    decreases |s| - from
  {
    if from < |s| && IsSpace(s[from]) then SkipSpaces(s, from + 1) else from
  }

  /** End of `s[lo..hi]` once its trailing whitespace is dropped. */
  function BackOverSpaces(s: string, lo: nat, hi: nat): (n: nat)
    requires lo <= hi <= |s|
    ensures lo <= n <= hi
    ensures forall k :: n <= k < hi ==> IsSpace(s[k])
    ensures lo < n ==> !IsSpace(s[n - 1])
    decreases hi
  {
    if lo < hi && IsSpace(s[hi - 1]) then BackOverSpaces(s, lo, hi - 1) else hi
  }

  /** `s.trimStart()`: the suffix of `s` from its first non-whitespace character on. */
  function TrimStart(s: string): string {
    s[SkipSpaces(s, 0)..]
  }

  /** `s.trim()`: the infix of `s` left once the whitespace on both ends is removed; it is
      empty exactly when `s` is all whitespace. */
  function Trim(s: string): (r: string)
    ensures r == [] <==> IsBlank(s)
    ensures r != [] ==> !IsSpace(r[0]) && !IsSpace(r[|r| - 1])
    ensures exists i, j {:trigger s[i..j]} :: 0 <= i <= j <= |s| && r == s[i..j]
              && (forall k :: 0 <= k < i ==> IsSpace(s[k]))
              && (forall k :: j <= k < |s| ==> IsSpace(s[k]))
  {
    var i := SkipSpaces(s, 0);
    var j := BackOverSpaces(s, i, |s|);
    assert i < |s| ==> i < j;
    s[i..j]
  }

  /** Trimming twice is trimming once. */
  lemma TrimIdempotent(s: string)
    ensures Trim(Trim(s)) == Trim(s)
  {
    var r := Trim(s);
    if r != [] {
      assert SkipSpaces(r, 0) == 0;
      assert BackOverSpaces(r, 0, |r|) == |r|;
    }
  }

  /** ASCII lower-casing; every other character is left alone. */
  function LowerAscii(c: char): char {
    if 'A' <= c <= 'Z' then (c as int + 32) as char else c
  }

  /** `p` is a prefix of `s`. */
  predicate StartsWith(s: string, p: string) {
    |p| <= |s| && s[..|p|] == p
  }

  /** `s` ends with `p` when both are folded to ASCII lower case. */
  predicate EndsWithIgnoringAsciiCase(s: string, p: string) {
    |p| <= |s| && forall i :: 0 <= i < |p| ==> LowerAscii(s[|s| - |p| + i]) == LowerAscii(p[i])
  }

  /** `items.join(sep)`. */
  function Join(items: seq<string>, sep: string): string {
    if |items| == 0 then ""
    else if |items| == 1 then items[0]
    else items[0] + sep + Join(items[1..], sep)
  }

  /** `s.split(c)` for a one-character separator: the pieces between occurrences of `c`. */
  function Split(s: string, c: char): (parts: seq<string>)
    ensures |parts| >= 1
  {
    if s == [] then [""]
    else
      var rest := Split(s[1..], c);
      if s[0] == c then [""] + rest else [[s[0]] + rest[0]] + rest[1..]
  }

  /** Splitting a separator-free string yields that string alone. */
  lemma {:induction false} SplitWithoutSeparator(s: string, c: char)
    requires c !in s
    ensures Split(s, c) == [s]
  {
    if s != [] {
      SplitWithoutSeparator(s[1..], c);
      assert [s[0]] + s[1..] == s;
    }
  }

  /** Splitting at the first separator peels off the piece before it. */
  lemma {:induction false} SplitAtFirst(a: string, c: char, b: string)
    requires c !in a
    ensures Split(a + [c] + b, c) == [a] + Split(b, c)
  {
    if a == [] {
      assert a + [c] + b == [c] + b;
      assert ([c] + b)[1..] == b;
    } else {
      SplitAtFirst(a[1..], c, b);
      assert (a + [c] + b)[1..] == a[1..] + [c] + b;
      assert [a[0]] + a[1..] == a;
    }
  }

  /** `split` undoes `join` as long as the list is non-empty and no item contains the
      separator. */
  lemma {:induction false} SplitJoin(items: seq<string>, c: char)
    requires |items| >= 1
    requires forall i :: 0 <= i < |items| ==> c !in items[i]
    ensures Split(Join(items, [c]), c) == items
  {
    if |items| == 1 {
      SplitWithoutSeparator(items[0], c);
    } else {
      SplitJoin(items[1..], c);
      SplitAtFirst(items[0], c, Join(items[1..], [c]));
      assert [items[0]] + items[1..] == items;
    }
  }
}

=== FILE: uploads.dfy ===
/** The image upload and gallery under `/more/images`: the name an upload is stored under,
    the MIME-type filter applied before storing, and the extension filter the gallery
    applies to the upload directory's listing. */
module Uploads {
  import opened Values
  import opened Text
  import opened JsValues
  import opened Http

  // ---------------------------------------------------------------- stored name

  /** `replace(/\s+/g, '_')`, scanning left to right; `inRun` says the previous character
      was whitespace already replaced. */
  function Collapse(s: string, inRun: bool): string {
    if s == [] then []
    else if IsSpace(s[0]) then (if inRun then [] else ['_']) + Collapse(s[1..], true)
    else [s[0]] + Collapse(s[1..], false)
  }

  /** Every maximal run of whitespace in `s` becomes one `_`. */
  function CollapseSpaces(s: string): (r: string)
    ensures NoSpace(r)
    ensures |r| <= |s|
  {
    CollapseNoSpace(s, false);
    Collapse(s, false)
  }

  lemma {:induction false} CollapseNoSpace(s: string, inRun: bool)
    ensures NoSpace(Collapse(s, inRun))
    ensures |Collapse(s, inRun)| <= |s|
  {
    if s != [] {
      CollapseNoSpace(s[1..], IsSpace(s[0]));
    }
  }

  /** Text without whitespace is left as it is, whatever came before it. */
  lemma {:induction false} CollapsePlain(s: string, inRun: bool)
    requires NoSpace(s)
    ensures Collapse(s, inRun) == s
  {
    if s != [] {
      CollapsePlain(s[1..], false);
      assert [s[0]] + s[1..] == s;
    }
  }

  /** Whitespace-free text is its own sanitised name, and sanitising twice is sanitising
      once. */
  lemma CollapseSpacesIdempotent(s: string)
    ensures NoSpace(s) ==> CollapseSpaces(s) == s
    ensures CollapseSpaces(CollapseSpaces(s)) == CollapseSpaces(s)
  {
    if NoSpace(s) { CollapsePlain(s, false); }
    CollapsePlain(CollapseSpaces(s), false);
  }

  /** A whitespace-free tail passes through untouched. */
  lemma {:induction false} CollapseKeepsPlainTail(a: string, b: string, inRun: bool)
    requires NoSpace(b)
    ensures Collapse(a + b, inRun) == Collapse(a, inRun) + b
  {
    if a == [] {
      CollapsePlain(b, inRun);
      assert a + b == b;
    } else {
      assert (a + b)[0] == a[0] && (a + b)[1..] == a[1..] + b;
      CollapseKeepsPlainTail(a[1..], b, IsSpace(a[0]));
    }
  }

  /** A whole run of whitespace between two words becomes a single `_`. */
  lemma {:induction false} CollapseRun(w: string, b: string, inRun: bool)
    requires w != [] && IsBlank(w)
    ensures Collapse(w + b, inRun) == (if inRun then [] else ['_']) + Collapse(b, true)
  {
    assert (w + b)[0] == w[0] && (w + b)[1..] == w[1..] + b;
    if |w| == 1 {
      assert w[1..] + b == b;
    } else {
      CollapseRun(w[1..], b, true);
    }
  }

  /** Two words with a run of whitespace between them are joined by one `_`. */
  lemma WordsJoinedByUnderscore(a: string, w: string, b: string)
    requires NoSpace(a) && NoSpace(b)
    requires w != [] && IsBlank(w)
    ensures CollapseSpaces(a + w + b) == a + "_" + b
  {
    assert a + w + b == a + (w + b);
    CollapsePlain(a, false);
    CollapseRun(w, b, false);
    CollapsePlain(b, true);
    assert Collapse(a + (w + b), false) == Collapse(a, false) + Collapse(w + b, false) by {
      ConcatCollapse(a, w + b);
    }
  }

  /** After whitespace-free text the scan is never inside a run. */
  lemma {:induction false} ConcatCollapse(a: string, c: string)
    requires NoSpace(a)
    ensures Collapse(a + c, false) == Collapse(a, false) + Collapse(c, false)
  {
    if a != [] {
      assert (a + c)[0] == a[0] && (a + c)[1..] == a[1..] + c;
      assert !IsSpace(a[0]);
      assert NoSpace(a[1..]) by {
        forall k | 0 <= k < |a| - 1 ensures !IsSpace(a[1..][k]) { assert a[1..][k] == a[k + 1]; }
      }
      ConcatCollapse(a[1..], c);
      assert Collapse(a + c, false) == [a[0]] + Collapse(a[1..] + c, false);
    } else {
      assert a + c == c;
    }
  }

  /** The multer `filename` callback: the upload time in milliseconds, `_`, and the original
      name with whitespace runs replaced. */
  function StoredName(now: nat, original: string): string {
    Decimal(now) + "_" + CollapseSpaces(original)
  }

  /** The stored name gives back the upload time (its leading integer) and the sanitised
      original name (everything after the first `_`). */
  lemma StoredNameParts(now: nat, original: string)
    ensures ParseInt(StoredName(now, original)) == Some(now as int)
    ensures StoredName(now, original)[|Decimal(now)| + 1..] == CollapseSpaces(original)
    ensures StoredName(now, original)[|Decimal(now)|] == '_'
  {
    StoredNameTime(now, original);
    StoredNameTail(now, original);
  }

  lemma StoredNameTime(now: nat, original: string)
    ensures ParseInt(StoredName(now, original)) == Some(now as int)
  {
    var rest := "_" + CollapseSpaces(original);
    assert StoredName(now, original) == [] + Decimal(now) + rest;
    ParseIntReadsDecimal([], now, rest);
  }

  lemma StoredNameTail(now: nat, original: string)
    ensures StoredName(now, original)[|Decimal(now)| + 1..] == CollapseSpaces(original)
    ensures StoredName(now, original)[|Decimal(now)|] == '_'
  {
    var d, rest := Decimal(now), "_" + CollapseSpaces(original);
    var name := StoredName(now, original);
    assert name == d + rest;
    assert name[|d|] == rest[0];
    assert name[|d| + 1..] == rest[1..];
  }

  /** Two uploads get the same stored name only when they came in the same millisecond with
      the same sanitised name. */
  lemma StoredNameInjective(now1: nat, original1: string, now2: nat, original2: string)
    requires StoredName(now1, original1) == StoredName(now2, original2)
    ensures now1 == now2 && CollapseSpaces(original1) == CollapseSpaces(original2)
  {
    StoredNameParts(now1, original1);
    StoredNameParts(now2, original2);
  }

  // ---------------------------------------------------------------- filters

  /** The multer `fileFilter`: only MIME types beginning with `image/` (case-sensitive). */
  predicate AcceptsMime(mimeType: string) {
    StartsWith(mimeType, "image/")
  }

  /** `/\.(png|jpe?g|gif|webp)$/i`: the name ends in one of the five extensions, letter case
      ignored. */
  predicate IsGalleryImage(name: string) {
    || EndsWithIgnoringAsciiCase(name, ".png")
    || EndsWithIgnoringAsciiCase(name, ".jpg")
    || EndsWithIgnoringAsciiCase(name, ".jpeg")
    || EndsWithIgnoringAsciiCase(name, ".gif")
    || EndsWithIgnoringAsciiCase(name, ".webp")
  }

  /** The images the gallery lists: the directory's image files in listing order, or none
      when the directory cannot be read (`None`). */
  function Gallery(listing: Option<seq<string>>): (images: seq<string>)
    ensures listing.None? ==> images == []
    ensures forall k :: 0 <= k < |images| ==> IsGalleryImage(images[k]) && images[k] in listing.value
    ensures listing.Some? ==>
      forall k :: 0 <= k < |listing.value| && IsGalleryImage(listing.value[k]) ==> listing.value[k] in images
    ensures listing.Some? ==> |images| <= |listing.value|
  {
    if listing.None? then [] else KeepImages(listing.value)
  }

  function KeepImages(files: seq<string>): (images: seq<string>)
    ensures forall k :: 0 <= k < |images| ==> IsGalleryImage(images[k]) && images[k] in files
    ensures forall k :: 0 <= k < |files| && IsGalleryImage(files[k]) ==> files[k] in images
    ensures |images| <= |files|
  {
    if files == [] then []
    else if IsGalleryImage(files[0]) then [files[0]] + KeepImages(files[1..])
    else KeepImages(files[1..])
  }

  /** The filter keeps listing order: filtering two runs of names one after the other is
      filtering each and putting the results one after the other. */
  lemma {:induction false} KeepImagesConcat(a: seq<string>, b: seq<string>)
    ensures KeepImages(a + b) == KeepImages(a) + KeepImages(b)
  {
    if a != [] {
      assert (a + b)[0] == a[0];
      assert (a + b)[1..] == a[1..] + b;
      KeepImagesConcat(a[1..], b);
    } else {
      assert a + b == b;
    }
  }

  /** A single name is kept once if it is an image name and dropped otherwise; with
      `KeepImagesConcat` this fixes the result to the image names in order, each as often
      as the listing has it. */
  lemma KeepImagesSingle(name: string)
    ensures KeepImages([name]) == if IsGalleryImage(name) then [name] else []
  {
    assert [name][1..] == [];
  }

  /** Letter case does not matter and `jpe?g` takes both spellings; other names are left
      out. */
  lemma GalleryExamples()
    ensures IsGalleryImage("photo.JPEG") && IsGalleryImage("a.jpg") && IsGalleryImage("x.WebP")
    ensures !IsGalleryImage("notes.txt") && !IsGalleryImage("png")
  {
    assert EndsWithIgnoringAsciiCase("photo.JPEG", ".jpeg");
    assert EndsWithIgnoringAsciiCase("a.jpg", ".jpg");
    assert EndsWithIgnoringAsciiCase("x.WebP", ".webp");
    assert LowerAscii("notes.txt"[6]) != LowerAscii(".png"[1]);
    assert LowerAscii("notes.txt"[6]) != LowerAscii(".jpg"[1]);
    assert LowerAscii("notes.txt"[4]) != LowerAscii(".jpeg"[0]);
    assert LowerAscii("notes.txt"[6]) != LowerAscii(".gif"[1]);
    assert LowerAscii("notes.txt"[4]) != LowerAscii(".webp"[0]);
  }

  /** The MIME filter is a case-sensitive prefix test. */
  lemma MimeExamples()
    ensures AcceptsMime("image/png") && AcceptsMime("image/svg+xml")
    ensures !AcceptsMime("text/plain") && !AcceptsMime("IMAGE/PNG") && !AcceptsMime("image")
  {
    assert "image/png"[..6] == "image/";
    assert "image/svg+xml"[..6] == "image/";
    assert "text/plain"[..6][0] != "image/"[0];
    assert "IMAGE/PNG"[..6][0] != "image/"[0];
  }

  /** An image file whose name ends in a gallery extension still does once stored, so it is
      listed after the upload. */
  lemma StoredImageListed(now: nat, original: string)
    requires IsGalleryImage(original)
    ensures IsGalleryImage(StoredName(now, original))
  {
    if EndsWithIgnoringAsciiCase(original, ".png") {
      KeepsExtension(now, original, ".png");
    } else if EndsWithIgnoringAsciiCase(original, ".jpg") {
      KeepsExtension(now, original, ".jpg");
    } else if EndsWithIgnoringAsciiCase(original, ".jpeg") {
      KeepsExtension(now, original, ".jpeg");
    } else if EndsWithIgnoringAsciiCase(original, ".gif") {
      KeepsExtension(now, original, ".gif");
    } else {
      KeepsExtension(now, original, ".webp");
    }
  }

  /** A name ending in `ext`, ignoring case, keeps that ending once stored, provided `ext`
      is made of dots and lower-case letters. */
  lemma KeepsExtension(now: nat, original: string, ext: string)
    requires forall k :: 0 <= k < |ext| ==> ext[k] == '.' || 'a' <= ext[k] <= 'z'
    requires EndsWithIgnoringAsciiCase(original, ext)
    ensures EndsWithIgnoringAsciiCase(StoredName(now, original), ext)
  {
    var n := |ext|;
    var cut := |original| - n;
    var head, tail := original[..cut], original[cut..];
    assert head + tail == original;
    assert NoSpace(tail) by {
      forall k | 0 <= k < n ensures !IsSpace(tail[k]) {
        assert tail[k] == original[cut + k];
        assert LowerAscii(tail[k]) == LowerAscii(ext[k]) == ext[k];
      }
    }
    CollapseKeepsPlainTail(head, tail, false);
    var name := StoredName(now, original);
    var front := Decimal(now) + "_" + Collapse(head, false);
    assert name == front + tail;
    forall k | 0 <= k < n ensures LowerAscii(name[|name| - n + k]) == LowerAscii(ext[k]) {
      assert name[|name| - n + k] == tail[k] == original[cut + k];
    }
  }

  // ---------------------------------------------------------------- handlers

  /** A file as multer sees it. */
  datatype Upload = Upload(originalName: string, mimeType: string)

  const NoFileChosen := "Please select an image file to upload."
  const NotAnImage := "Only image files are allowed"

  /** `GET /more/images`: the page lists exactly the image-named files of the upload
      directory, with no error; an unreadable directory shows an empty gallery. */
  function GalleryPage(listing: Option<seq<string>>): (r: Response<seq<string>>)
    ensures r.View? && r.status == 200 && r.template == "more-images" && r.errors == []
    ensures forall name :: name in r.data <==> listing.Some? && name in listing.value && IsGalleryImage(name)
  {
    var images := Gallery(listing);
    assert forall name :: listing.Some? && name in listing.value && IsGalleryImage(name) ==> name in images by {
      forall name | listing.Some? && name in listing.value && IsGalleryImage(name) ensures name in images {
        var k :| 0 <= k < |listing.value| && listing.value[k] == name;
      }
    }
    View(200, "more-images", [], "", images)
  }

  /** `POST /more/images`, with the upload time `now` and the directory listing taken as
      parameters. A file of another MIME type is refused by the filter and reaches the
      default error handler (500 with that handler's page, nothing stored); no file at all gives the gallery again
      with status 400 and the error; otherwise the file is stored under its new name and
      the browser goes back to the gallery. Returns the stored name, if any. */
  function PostImage(listing: Option<seq<string>>, now: nat, file: Option<Upload>): (r: (Option<string>, Response<seq<string>>))
    ensures r.0.Some? <==> file.Some? && AcceptsMime(file.value.mimeType)
    ensures r.0.Some? ==> r.0.value == StoredName(now, file.value.originalName) && r.1 == Redirect("/more/images")
    ensures file.None? ==> r.1 == View(400, "more-images", [NoFileChosen], "", Gallery(listing))
    ensures file.Some? && !AcceptsMime(file.value.mimeType) ==> r.1 == ServerError(NotAnImage)
  {
    match file
    case None => (None, View(400, "more-images", [NoFileChosen], "", Gallery(listing)))
    case Some(f) =>
      if !AcceptsMime(f.mimeType) then (None, ServerError(NotAnImage))
      else (Some(StoredName(now, f.originalName)), Redirect("/more/images"))
  }

  /** After an image upload is stored, the gallery page lists it once the directory holds
      the new file, provided the original name ends in a gallery extension. */
  lemma UploadShownInGallery(files: seq<string>, now: nat, f: Upload)
    requires AcceptsMime(f.mimeType) && IsGalleryImage(f.originalName)
    ensures var (stored, resp) := PostImage(Some(files), now, Some(f));
      && stored.Some? && resp == Redirect("/more/images")
      && stored.value in GalleryPage(Some(files + [stored.value])).data
  {
    var name := StoredName(now, f.originalName);
    StoredImageListed(now, f.originalName);
    assert name in files + [name];
  }
}

=== FILE: values.dfy ===
/** Failure-compatible wrappers shared by every module of the model. */
module Values {

  /** A value that may be missing: JavaScript's `undefined`/`null` versus a present value,
      and SQL NULL versus a stored value. */
  datatype Option<+T> = None | Some(value: T)

  /** The outcome of a store statement: the new state, or the constraint that rejected it. */
  datatype Result<+T, +E> = Ok(value: T) | Err(error: E)
}
